=== FILE: README.md ===
# MPI-VM-utils in Dafny

This project models the two scripts of MPI-VM-utils in Dafny: the cluster bootstrap and the job launcher.

The bootstrap is `set_up_mpi.py`. Its `main` does the following, in order:
1. Launches `size` multipass VMs named `manager`, `worker1`, …
2. Discovers their addresses with `multipass list`.
3. Appends every other node to each node's `/etc/hosts`.
4. Generates an RSA key on every node and collects the public keys.
5. Appends every other node's key to each node's `authorized_keys`. After each append it opens one ssh session from the key's owner to that node, which makes the owner trust that node's host key.
6. Exports `/home/ubuntu/cloud` from `manager` over NFS.
7. Mounts that export on every worker and records it in each worker's `/etc/fstab`.
8. Writes the host list `/home/ubuntu/cloud/mpi_hosts` on `manager`.

The job launcher is `run_mpi.py`. With `-c` it copies a C source to `manager` and compiles it with `mpicc` into the shared directory. With `-r` it checks that the compiled program exists, then runs it with `mpiexec` over the host list, passing `-n` only when a process count was given.

Each script function is modelled as a pure function that returns the plan of remote commands it issues (`Cluster.Command`). An interpreter, `Cluster.Perform`, applies a plan to an abstract cluster. That cluster is a map from VM name to the text files the scripts append to, each file a list of lines. `Bootstrap.SetUp` chains the stages the way `main` does. It returns the log of issued commands and the final cluster, or the Python exception that ends the run early. The properties are stated about those logs and files:
- which ordered pairs of nodes each mesh step covers;
- what every file contains afterwards;
- the key-generation barrier;
- what a re-run does;
- how `-c`, `-r` and `-n` choose a command.

Everything outside the scripts is a parameter of the model:
- what `multipass list` returned, as a return code and the instance records;
- the public key read back from each node (`keyOf`);
- whether the local source file exists;
- the exit status of the remote `test -f`.

The model follows the code as written, in these respects:
- Every configuration file is appended to blindly. Nothing checks whether a line is already there, so a second run writes each line again. This includes `mpi_hosts`, which is appended to and never overwritten.
- The head node is `manager`.
- No return code is checked except those of `multipass list` and `test -f`. A launch of a name that already exists does nothing, and the run goes on. That name clash is the only failed launch the model represents.
- Discovery does not check that the Running set matches `size`. Name resolution uses whatever was discovered. Key distribution, the NFS clients and the host list use `range(size)`.
- A failed `multipass list` makes `get_vm_ips` return `None`. The run then crashes in `update_etc_hosts`, which is modelled as `AttributeError`.
- A Running VM without an address crashes the dict comprehension, which is modelled as `IndexError`.
- `-c` prints "File compiled successfully." even when the source did not exist.

## Model

| member | source | states |
|---|---|---|
| Cluster.PerformLines | set_up_mpi.py:39-41 | Appends are blind. On an existing VM, each file after a plan is its previous lines followed by exactly the lines the plan appends to it, in issue order. |
| Cluster.PerformNodes | set_up_mpi.py:12-16 | No step ever deletes a VM. The VMs after a plan are those before it plus the ones it launched. |
| Cluster.PerformConcat | set_up_mpi.py:113-120 | Running two plans one after the other is the same as running their concatenation. |
| Cluster.Issue | set_up_mpi.py:113-120 | Issuing a plan extends the log without rewriting its past. It adds exactly the plan's launches to the set of VMs. |
| Decimal.IntRoundTrip | run_mpi.py:28-30 | Parsing the decimal text that an f-string gives for an integer returns that integer, negatives and zero included. |
| Decimal.NatToStringInjective | set_up_mpi.py:14 | Different indices give different decimal texts, so `worker{i}` names never collide. |
| Decimal.IntToString | run_mpi.py:30 | An f-string renders an int as a `-` exactly for negative values, then at least one digit, with no leading zero. |
| LexOrder.LessTotal | set_up_mpi.py:26 | Python string order is total: any two different names are ordered one way or the other. |
| LexOrder.LessTransitive | set_up_mpi.py:26 | Python string order is transitive. |
| LexOrder.Worker10BeforeWorker2 | set_up_mpi.py:26 | Names are sorted as text, not by number: `worker10` comes before `worker2`. |
| OrderedDict.Put | set_up_mpi.py:56 | Dict assignment: an existing key keeps its position and takes the new value. A new key goes at the end. Every other key's value is unchanged. |
| OrderedDict.PutUnique | set_up_mpi.py:56 | Assignment never creates a second entry with the same key. |
| OrderedDict.GetFindsStored | set_up_mpi.py:27 | A lookup succeeds exactly when the key is in the dict, and the value it returns is stored under that key. |
| Mesh.PairsMembership | set_up_mpi.py:35-38 | The nested loops with `name != other_name` visit an ordered pair of entries exactly when the two names differ. |
| Mesh.PairsCount | set_up_mpi.py:35-38 | With n unique keys the nested loops visit n·(n−1) pairs. |
| Mesh.PairsDistinct | set_up_mpi.py:35-38 | With unique keys no pair is visited twice. |
| Mesh.LinesForPairs | set_up_mpi.py:35-41 | The lines the pair loop appends to node A are one line per other entry, in dict order, never A's own. |
| Provision.NodeNamesShape | set_up_mpi.py:12-14 | `manager` comes first, the names are pairwise distinct, and `manager` is among them exactly when size ≥ 1. |
| Provision.NodeNameInjective | set_up_mpi.py:14 | Different loop indices give different VM names. |
| Provision.LaunchVms | set_up_mpi.py:10-18 | One launch per index in `range(size)`, in order. Each one names that index's VM with the given CPUs, RAM and the cloud-init profile. |
| Provision.LaunchVmsNames | set_up_mpi.py:12-16 | The plan launches exactly the names of `range(size)`. |
| Provision.LaunchVmsEffect | set_up_mpi.py:12-16 | After launching, a VM exists exactly when it existed before or is one of the `range(size)` names. No file changes. |
| Discovery.SortByName | set_up_mpi.py:26 | The sort returns a name-sorted permutation of the listed instances. |
| Discovery.SortByNameStable | set_up_mpi.py:26 | The sort is stable, as `list.sort` is: the instances of any one name keep their listing order. |
| Discovery.IpsOfHasKey | set_up_mpi.py:27 | A name is a key of the comprehension's dict exactly when some Running instance has that name. |
| Discovery.IpsOfValue | set_up_mpi.py:27 | Each key's value is the first IPv4 address of some Running instance with that name. |
| Discovery.IpsOfLast | set_up_mpi.py:27 | When several Running instances share a name, the last one's address is kept. |
| Discovery.IpsOfAscending | set_up_mpi.py:26-27 | Built from the sorted listing, the dict's keys are in strictly increasing name order. |
| Discovery.IpsUnique | set_up_mpi.py:27 | The dict never holds the same key twice. |
| Discovery.GetVmIps | set_up_mpi.py:21-31 | It fails exactly on a non-zero return code. It crashes exactly when a Running VM has no address. Otherwise the keys, in increasing order, are exactly the names of the Running VMs, and each value is such a VM's first address. With unique Running names, each VM's own address. |
| NameResolution.UpdateEtcHosts | set_up_mpi.py:34-41 | `update_etc_hosts` issues one command per visited pair of the dict, each an append to `/etc/hosts`. Which node gets which line is stated by the two lemmas below. |
| NameResolution.UpdateEtcHostsPairs | set_up_mpi.py:34-41 | With n unique keys there are n·(n−1) appends. There is one for each ordered pair (A, B) of different nodes, on A and naming B, and no other. |
| NameResolution.UpdateEtcHostsEffect | set_up_mpi.py:34-41 | On a discovered node, `/etc/hosts` keeps its old lines and gains one `ip name` line per other node, in dict order, never its own. Other files and other nodes are unchanged. |
| NameResolution.UpdateEtcHostsRerun | set_up_mpi.py:39-41 | Running the step twice writes every line twice: the appends are not idempotent. |
| Trust.GenerateSshKeys | set_up_mpi.py:45-58 | The collected keys are named exactly `range(size)`'s names, in loop order, and each one holds that node's key. The plan has two remote commands per node, a keygen and a read of the public key. |
| Trust.GeneratedKeysUnique | set_up_mpi.py:47-56 | The collected key dict has unique names. |
| Trust.GenerateSshKeysOrder | set_up_mpi.py:48-55 | Node i's `ssh-keygen` is command 2i and the read of its `id_rsa.pub` is command 2i+1. |
| Trust.SetupSshKeys | set_up_mpi.py:61-72 | `setup_ssh_keys` issues two commands per visited pair, each an append to `authorized_keys` or an ssh session. Their order, count and effect are stated by the lemmas below. |
| Trust.TrustCommandsOrder | set_up_mpi.py:65-72 | For each visited pair, the append to the node's `authorized_keys` comes first. Then the other VM opens an ssh session to that node. |
| Trust.SetupSshKeysCallCount | set_up_mpi.py:61-72 | With n unique keys there are n·(n−1) ssh sessions. |
| Trust.SetupSshKeysCallsDistinct | set_up_mpi.py:61-72 | No ssh session (from, to) is opened twice. |
| Trust.SetupSshKeysCallPairs | set_up_mpi.py:63-72 | An ssh session from one node to another is opened exactly when both are keys and they differ. |
| Trust.SetupSshKeysEffect | set_up_mpi.py:61-69 | On a key node, `authorized_keys` keeps its old lines and gains every other node's public key, in dict order, never its own. Nothing else changes. |
| SharedStorage.SetupNfsServer | set_up_mpi.py:76-83 | Every server command runs on `manager`. |
| SharedStorage.SetupNfsServerAppends | set_up_mpi.py:80-81 | The only line the server step appends is the export entry, to `manager`'s `/etc/exports`. |
| SharedStorage.SetupNfsCommon | set_up_mpi.py:86-93 | The client step issues nothing for size ≤ 1. Otherwise it issues three commands per worker: mkdir, mount, and an append to `/etc/fstab`. |
| SharedStorage.SetupNfsCommonOrder | set_up_mpi.py:87-93 | Worker i, for 1 ≤ i < size, gets commands 3(i−1) to 3(i−1)+2: `mkdir` of the shared directory, a mount of `manager:/home/ubuntu/cloud` onto it, and the append of the fstab line. |
| SharedStorage.SetupNfsCommonNodes | set_up_mpi.py:86-89 | The client step never touches `manager`. It only touches `worker1` … `worker{size-1}`. |
| SharedStorage.SetupNfsCommonAppends | set_up_mpi.py:86-93 | Each worker of `range(1, size)` gains exactly one fstab line. Nothing else gains anything. |
| SharedStorage.CreateMpiHosts | set_up_mpi.py:96-102 | `create_mpi_hosts` first touches `mpi_hosts` on `manager`. Then command i+1 appends the name of node i, `manager` first, for every i of `range(size)`. |
| SharedStorage.CreateMpiHostsAppends | set_up_mpi.py:96-103 | The host list step appends `range(size)`'s names, `manager` first, to `manager`'s `mpi_hosts`, and nothing else. |
| SharedStorage.CreateMpiHostsEffect | set_up_mpi.py:96-103 | `mpi_hosts` gains the names in order. From empty it holds exactly those names. A second run appends them again after the first. |
| Bootstrap.Preamble | set_up_mpi.py:113-114 | Before discovery the run launches `manager`, `worker1`, … `worker{size-1}` in that order, each with the requested cpus, memory and the cloud-init file. Then it issues the listing. Nothing in it executes on a VM. |
| Bootstrap.Stages | set_up_mpi.py:115-120 | Everything after discovery runs on a VM: no stage launches or lists VMs. The barrier and effect lemmas below state the stages' order and what they write. |
| Bootstrap.Resume | set_up_mpi.py:114-120 | The run continues past discovery exactly when discovery found addresses. An `AttributeError` comes from a failed listing, an `IndexError` from a missing address. A crash issues nothing more. |
| Bootstrap.SetUp | set_up_mpi.py:106-120 | Every run, crashed or not, starts its log with the launches and the listing. A crashed run has issued nothing else. |
| Bootstrap.SetUpCrashes | set_up_mpi.py:21-35 | The run crashes exactly when `multipass list` failed or a Running VM has no address. The crash is an `AttributeError` exactly when the listing failed. |
| Bootstrap.StagesBarrier | set_up_mpi.py:113-120 | Whatever keys were collected, every key generation (`ssh-keygen` and the `cat` of the public key) precedes every key distribution in the stage log. |
| Bootstrap.KeyBarrier | set_up_mpi.py:116-117 | In a completed run, every `ssh-keygen` and every `cat` of a public key precedes every append to `authorized_keys` and every ssh session. |
| Bootstrap.StagesHostsFirst | set_up_mpi.py:115-119 | In the stage log, every append to `/etc/hosts` precedes every ssh session and every NFS mount. |
| Bootstrap.HostsBarrier | set_up_mpi.py:115-119 | In a completed run, `update_etc_hosts` has finished before any node is reached by name: every `/etc/hosts` append precedes every ssh session and every mount. |
| Bootstrap.StagesExportFirst | set_up_mpi.py:118-119 | The stage log contains `manager`'s export line, `exportfs -a` and server restart. All three precede every NFS mount. |
| Bootstrap.ExportBarrier | set_up_mpi.py:118-119 | In a completed run, `manager` does append the export line, run `exportfs -a` and restart the NFS server, and it does so before any worker mounts the share. |
| Bootstrap.StagesAppends | set_up_mpi.py:115-120 | The lines the stages append to any file of any node are exactly what `Written` gives: host lines, keys, the export entry, the fstab entry, the host list. |
| Bootstrap.StagesLaunchNothing | set_up_mpi.py:115-120 | The six stages after discovery launch no VM. Only the preamble creates VMs. |
| Bootstrap.SetUpFiles | set_up_mpi.py:113-120 | In a completed run, each file of each VM ends as its old lines plus exactly its `Written` lines. |
| Bootstrap.SetUpHostList | set_up_mpi.py:96-102 | For any size, a completed run leaves `mpi_hosts` as its old content plus `manager`, `worker1`, … `worker{size-1}`. On a fresh cluster it is exactly that list, which is empty for a size ≤ 0. |
| Bootstrap.SetUpRerunHostList | set_up_mpi.py:98-102 | Two completed runs, the second over the first one's cluster, leave `mpi_hosts` as its old content plus the node list twice. `touch` never truncates the file. |
| Bootstrap.SetUpSshCalls | set_up_mpi.py:116-117 | A completed run opens size·(size−1) ssh sessions. A session from one node to another is opened exactly when both are among `range(size)`'s names and they differ. |
| Bootstrap.ThreeNodes | set_up_mpi.py:113-120 | A completed three-node run on a fresh cluster lists `manager`, `worker1`, `worker2` and opens six ssh sessions. |
| JobLauncher.LastIndex | run_mpi.py:12-13 | The index of the last occurrence of a character, or −1 when there is none. |
| JobLauncher.Basename | run_mpi.py:12 | `os.path.basename` gives the suffix of the path after its last `/`. |
| JobLauncher.SplitExt | run_mpi.py:13 | `os.path.splitext` splits the name into root and extension that concatenate back to it. The extension is empty or a `.` with no further dot. A leading run of dots is never an extension. |
| JobLauncher.ArtifactName | run_mpi.py:12-13 | The artifact name is a prefix of the source's base name and contains no `/`. `SplitExt` states which suffix is dropped, and the lemmas below give examples. |
| JobLauncher.ArtifactOfSourceInDirectory | run_mpi.py:12-13 | `dir/prog.c` compiles to `prog`. |
| JobLauncher.ArtifactOfDoubleExtension | run_mpi.py:12-13 | Only the last extension is stripped: `a.tar.gz` gives `a.tar`. |
| JobLauncher.ArtifactOfDotFile | run_mpi.py:12-13 | A leading dot is not an extension: `.bashrc` stays `.bashrc`. |
| JobLauncher.ArtifactWithoutExtension | run_mpi.py:12-13 | A name without a dot is its own artifact: `src/hello` gives `hello`. |
| JobLauncher.CompileFile | run_mpi.py:6-18 | A missing source issues nothing and reports "File not found". Otherwise it transfers the source to `manager:cloud` and reports the transfer. It then compiles `/home/ubuntu/cloud/<base name>` on `manager` into `/home/ubuntu/cloud/<base name without extension>`, the path that `run_mpi_program` tests. |
| JobLauncher.MpiCommand | run_mpi.py:27-30 | The command always starts with the `mpiexec -hostfile` prefix. It is only that prefix exactly when the count is −1. Otherwise it is the prefix, ` -n ` and the count in Python's `str` form. |
| JobLauncher.MpiCommandRoundTrip | run_mpi.py:28-30 | `-n k` is present exactly when k ≠ −1, and it carries k, including 0 and negative counts. |
| JobLauncher.RunMpiProgram | run_mpi.py:21-33 | It first tests for `/home/ubuntu/cloud/<file>` on `manager`. It runs exactly when the test succeeds: the command is `MpiCommand(n)` on the tested path. Otherwise it only reports the missing artifact. |
| JobLauncher.RunMpi | run_mpi.py:44-50 | A non-empty `-c` issues exactly the commands and messages of compiling that file and then reports success, even when the source is missing. Otherwise a non-empty `-r` behaves exactly as running that file with count `-n`. With neither option it only prints the usage hint. |
| JobLauncher.CompileTakesPrecedence | run_mpi.py:44-48 | With a non-empty `-c`, the outcome does not depend on `-r`, `-n` or the remote test. |
| JobLauncher.MissingSourceStillReportsSuccess | run_mpi.py:8-10 | A missing source prints "File not found" followed by "File compiled successfully.", and issues nothing. |
| JobLauncher.EmptySourceFallsThrough | run_mpi.py:44-47 | An empty `-c ""` is falsy, so the launcher runs the `-r` program instead. |
| JobLauncher.DefaultCountOmitted | run_mpi.py:38-41 | With `-n` left at its default of −1, `mpiexec` gets no process count. |

## Left out

- Subprocess execution, shell quoting and the exact command strings are left out. Commands are data, and the model fixes what each one does to the tracked files.
- Only text files that receive appended lines are tracked: `/etc/hosts`, `authorized_keys`, `/etc/exports`, `/etc/fstab` and `mpi_hosts`.
- The following are not modelled as state:
  - directory creation;
  - mounts;
  - `exportfs` and the service restart;
  - the key files written by `ssh-keygen`;
  - transferred and compiled binaries.
- SSH, NFS and RSA semantics are left out. Each ssh session only records the (from, to) pair it opens. Adding the host key to `known_hosts` is not modelled as file content.
- JSON parsing of `multipass list` is left out. The listing is given as already-parsed instance records.
- Collaborator outputs are inputs to the model:
  - the return code and records of `multipass list`;
  - the stripped public key read from each node (`keyOf`);
  - `os.path.exists` of the source;
  - the exit status of `test -f`.
- The return codes of `multipass launch`, `exec` and `transfer` are ignored by the scripts, so they are not modelled. A launch of an existing name is a no-op. A command on an absent VM changes nothing but is still logged.
- Logging, timing, `print` of the discovered dict, and argparse's parsing and type conversion are left out. Options are given as already-parsed values. The `--cpu`/`--ram` defaults are not represented.
- `ssh-keygen` on a node that already has a key would prompt before overwriting. The model treats a re-run's key generation as producing `keyOf` again.
- Discovery.GetVmIps: when Running instances share a name, the model states each key's value only as some such instance's address. The exact last-wins choice is stated separately by `Discovery.IpsOfLast`.
- Compilation errors and the compiler's output are left out. The `mpicc` return code is ignored by the script.
- Bootstrap.SetUpFiles: a VM launched by the run starts with no lines in any tracked file. A real image already ships `/etc/hosts` and `/etc/fstab` with content. For a new node the lemma states only the lines the run appends, and the image's initial content is not modelled.
- Every launch of a new name creates that VM, and every command on an existing VM takes effect. A launch can also fail for other reasons, such as a full disk, a failed image download or a timeout. `launch_vms` ignores its return code (set_up_mpi.py:15-16), so the run would go on with no such VM and its later commands would do nothing. This is not modelled. The listing is not tied to the launches either: what `multipass list` reports is an input and need not match the VMs the run launched.

=== FILE: bootstrap.dfy ===
/**
  `main()` of the bootstrap script: launch, discover, then name resolution, key
  generation, key distribution, the NFS server, the NFS clients and the host list,
  in that order, with nothing checked in between. Discovery can make the run
  crash before any configuration is issued.
 */
module Bootstrap {
  import opened Cluster
  import opened OrderedDict
  import opened Mesh
  import opened Provision
  import opened Discovery
  import opened NameResolution
  import opened Trust
  import opened SharedStorage

  /** The Python exception that ends a run early. */
  datatype Crash =
    | IndexError      // `vm["ipv4"][0]` on a Running VM without an address
    | AttributeError  // `None.items()` after `multipass list` failed

  datatype Outcome = Completed(trace: Trace) | Crashed(error: Crash, trace: Trace)

  /** The commands up to and including discovery: the launches, then `multipass list`. */
  function Preamble(size: int, cpu: int, ram: int): (r: seq<Command>)
    ensures |r| == Count(size) + 1
    ensures forall i :: 0 <= i < Count(size) ==> r[i] == Launch(NodeName(i), cpu, ram, CloudInit)
    ensures r[Count(size)] == List
    ensures forall cmd :: cmd in r ==> !cmd.Exec?
  {
    var l := LaunchVms(size, cpu, ram);
    assert forall cmd :: cmd in l ==> cmd.Launch? by {
      forall cmd | cmd in l
        ensures cmd.Launch?
      {
        var i :| 0 <= i < |l| && l[i] == cmd;
      }
    }
    l + [List]
  }

  /** The stages after discovery, in the order `main` calls them, given the collected keys. */
  function Stages(ips: seq<Entry>, gen: KeyGeneration, size: int): (r: seq<Command>)
    ensures (forall cmd :: cmd in gen.commands ==> cmd.Exec?) ==> forall cmd :: cmd in r ==> cmd.Exec?
  {
    var m := CreateMpiHosts(size);
    assert forall cmd :: cmd in m ==> cmd.Exec? by {
      forall cmd | cmd in m
        ensures cmd.Exec?
      {
        var i :| 0 <= i < |m| && m[i] == cmd;
      }
    }
    UpdateEtcHosts(ips) + gen.commands + SetupSshKeys(gen.keys)
    + SetupNfsServer() + SetupNfsCommon(size) + m
  }

  /** `main` from the return of `get_vm_ips()` on, after the log `t`. */
  function Resume(t: Trace, d: Discovered, size: int, keyOf: string -> string): (r: Outcome)
    ensures r.Crashed? <==> !d.Found?
    ensures r.Crashed? ==> r.trace == t && (r.error == AttributeError <==> d.ListFailed?)
    ensures r.Completed? ==> |r.trace.log| >= |t.log| && r.trace.log[..|t.log|] == t.log
  {
    match d
    case ListFailed => Crashed(AttributeError, t)
    case MissingAddress => Crashed(IndexError, t)
    case Found(ips) => Completed(Issue(t, Stages(ips, GenerateSshKeys(size, keyOf), size)))
  }

  /**
    One run of `main` on cluster `c`; `listing` is what `multipass list` answers and
    `keyOf` what `cat` of each node's public key prints. A crash comes right after
    the listing, before any command runs on a VM.
   */
  function SetUp(c: State, size: int, cpu: int, ram: int, listing: Listing, keyOf: string -> string): (r: Outcome)
    ensures r.Crashed? ==> |r.trace.log| == Count(size) + 1 && forall cmd :: cmd in r.trace.log ==> !cmd.Exec?
    ensures |r.trace.log| >= Count(size) + 1 && r.trace.log[..Count(size) + 1] == Preamble(size, cpu, ram)
  {
    Resume(Issue(Trace(c, []), Preamble(size, cpu, ram)), GetVmIps(listing), size, keyOf)
  }

  /**
    When a run crashes: `multipass list` failed (then `None.items()` raises
    AttributeError) or a Running VM has no address (then `vm["ipv4"][0]` raises
    IndexError).
   */
  lemma SetUpCrashes(c: State, size: int, cpu: int, ram: int, listing: Listing, keyOf: string -> string)
    ensures var r := SetUp(c, size, cpu, ram, listing, keyOf);
            (r.Crashed? <==>
               listing.returnCode != 0 || exists vm :: vm in listing.instances && IsRunning(vm) && |vm.ipv4| == 0)
            && (r.Crashed? ==> (r.error == AttributeError <==> listing.returnCode != 0))
  {
    var d := GetVmIps(listing);
    assert d.ListFailed? <==> listing.returnCode != 0;
  }

  /** The listing lets a run past discovery: `multipass list` succeeded and every Running VM has an address. */
  predicate Completes(listing: Listing) {
    listing.returnCode == 0 && AddressesPresent(listing.instances)
  }

  /** A run on such a listing completes: the preamble followed by the stages, interpreted from `c`. */
  lemma SetUpCompleted(c: State, size: int, cpu: int, ram: int, listing: Listing, keyOf: string -> string)
    requires Completes(listing)
    ensures SetUp(c, size, cpu, ram, listing, keyOf).Completed?
    ensures GetVmIps(listing).Found?
    ensures var stages := Stages(GetVmIps(listing).ips, GenerateSshKeys(size, keyOf), size);
            var t := SetUp(c, size, cpu, ram, listing, keyOf).trace;
            t.log == Preamble(size, cpu, ram) + stages
            && t.cluster == Perform(Perform(c, Preamble(size, cpu, ram)), stages)
  {
    SetUpCrashes(c, size, cpu, ram, listing, keyOf);
  }

  /** Key generation issues `ssh-keygen` and reads the public key back with `cat`. */
  predicate GeneratesKey(cmd: Command) {
    cmd.Exec? && (cmd.op.KeyGen? || cmd.op.ReadFile?)
  }

  /** Key distribution appends to `authorized_keys` or opens an ssh session. */
  predicate DistributesKey(cmd: Command) {
    cmd.Exec? && (cmd.op.Ssh? || (cmd.op.AppendLine? && cmd.op.path == AuthorizedKeys))
  }

  /** Name resolution appends to `/etc/hosts`. */
  predicate WritesHosts(cmd: Command) {
    cmd.Exec? && cmd.op.AppendLine? && cmd.op.path == EtcHosts
  }

  /** A command that reaches another node by its name: an ssh session or an NFS mount. */
  predicate ReachesByName(cmd: Command) {
    cmd.Exec? && (cmd.op.Ssh? || cmd.op.Mount?)
  }

  /** `manager` publishes the share: the export line, `exportfs -a` and the server restart. */
  predicate PublishesShare(cmd: Command) {
    cmd.Exec? && cmd.node == Manager
    && (cmd.op == AppendLine(Exports, ExportsLine) || cmd.op.ExportAll? || cmd.op.RestartService?)
  }

  /** `manager` has appended the export line, run `exportfs -a` and restarted the NFS server. */
  predicate SharePublished(log: seq<Command>) {
    Exec(Manager, AppendLine(Exports, ExportsLine)) in log
    && Exec(Manager, ExportAll) in log
    && Exec(Manager, RestartService(NfsService)) in log
  }

  /** A node mounts the share. */
  predicate MountsShare(cmd: Command) {
    cmd.Exec? && cmd.op.Mount?
  }

  /** Every command of the log that is `first` comes before every command of it that is `later`. */
  predicate Precedes(log: seq<Command>, first: Command -> bool, later: Command -> bool) {
    forall i, j :: 0 <= i < |log| && 0 <= j < |log| && first(log[i]) && later(log[j]) ==> i < j
  }

  /** Every key generation of the log comes before every key distribution of it. */
  predicate KeysGeneratedFirst(log: seq<Command>) {
    Precedes(log, GeneratesKey, DistributesKey)
  }

  predicate NoneOf(cmds: seq<Command>, p: Command -> bool) {
    forall cmd :: cmd in cmds ==> !p(cmd)
  }

  /** A log split so that nothing `later` comes before the cut and nothing `first` after it. */
  lemma Barrier(p: seq<Command>, s: seq<Command>, first: Command -> bool, later: Command -> bool)
    requires NoneOf(p, later) && NoneOf(s, first)
    ensures Precedes(p + s, first, later)
  {
    assert forall k :: 0 <= k < |p| ==> p[k] in p;
    assert forall k :: 0 <= k < |s| ==> s[k] in s;
  }

  /** Name resolution only appends to `/etc/hosts`. */
  lemma EtcHostsShape(ips: seq<Entry>)
    ensures forall cmd :: cmd in UpdateEtcHosts(ips) ==> WritesHosts(cmd)
  {
    var h := UpdateEtcHosts(ips);
    forall cmd | cmd in h
      ensures WritesHosts(cmd)
    {
      var i :| 0 <= i < |h| && h[i] == cmd;
    }
  }

  /** The host list only touches and appends to `mpi_hosts` on `manager`. */
  lemma MpiHostsShape(size: int)
    ensures forall cmd :: cmd in CreateMpiHosts(size) ==>
              cmd.Exec? && cmd.node == Manager && (cmd.op.Touch? || cmd.op == AppendLine(MpiHosts, cmd.op.line))
  {
    var m := HostListAppends(size);
    forall cmd | cmd in m
      ensures cmd.Exec? && cmd.node == Manager && cmd.op == AppendLine(MpiHosts, cmd.op.line)
    {
      var i :| 0 <= i < |m| && m[i] == cmd;
    }
  }

  /** What the storage stages run: directories, the export, mounts, and appends to their own three files. */
  predicate StorageCommand(cmd: Command) {
    cmd.Exec?
    && (cmd.op.MakeDir? || cmd.op.Mount? || cmd.op.ExportAll? || cmd.op.RestartService? || cmd.op.Touch?
        || (cmd.op.AppendLine? && (cmd.op.path == Exports || cmd.op.path == Fstab || cmd.op.path == MpiHosts)))
  }

  /** The NFS server, the NFS clients and the host list run only storage commands. */
  lemma StorageShape(size: int)
    ensures forall cmd :: cmd in SetupNfsServer() + SetupNfsCommon(size) + CreateMpiHosts(size) ==> StorageCommand(cmd)
  {
    MpiHostsShape(size);
  }

  /** Nothing up to the end of key generation distributes a key. */
  lemma BeforeDistribution(ips: seq<Entry>, k: seq<Command>, size: int, cpu: int, ram: int)
    requires forall cmd :: cmd in k ==> cmd.Exec? && (cmd.op.KeyGen? || cmd.op.ReadFile?)
    ensures NoneOf(Preamble(size, cpu, ram) + UpdateEtcHosts(ips) + k, DistributesKey)
  {
    EtcHostsShape(ips);
    PathsDistinct();
  }

  /** Nothing from key distribution on generates a key. */
  lemma AfterGeneration(keys: seq<Entry>, size: int)
    ensures NoneOf(SetupSshKeys(keys) + SetupNfsServer() + SetupNfsCommon(size) + CreateMpiHosts(size), GeneratesKey)
  {
    var t, st := SetupSshKeys(keys), SetupNfsServer() + SetupNfsCommon(size) + CreateMpiHosts(size);
    StorageShape(size);
    forall cmd | cmd in t + st
      ensures !GeneratesKey(cmd)
    {
      if cmd in t {
      } else {
        assert StorageCommand(cmd);
      }
    }
  }

  /** Nothing up to the end of name resolution reaches a node by name. */
  lemma BeforeReaching(ips: seq<Entry>, size: int, cpu: int, ram: int)
    ensures NoneOf(Preamble(size, cpu, ram) + UpdateEtcHosts(ips), ReachesByName)
  {
    EtcHostsShape(ips);
  }

  /** Nothing after name resolution writes `/etc/hosts`. */
  lemma AfterHosts(k: seq<Command>, keys: seq<Entry>, size: int)
    requires forall cmd :: cmd in k ==> cmd.Exec? && (cmd.op.KeyGen? || cmd.op.ReadFile?)
    ensures NoneOf(k + SetupSshKeys(keys) + SetupNfsServer() + SetupNfsCommon(size) + CreateMpiHosts(size), WritesHosts)
  {
    var t, st := SetupSshKeys(keys), SetupNfsServer() + SetupNfsCommon(size) + CreateMpiHosts(size);
    StorageShape(size);
    PathsDistinct();
    forall cmd | cmd in k + t + st
      ensures !WritesHosts(cmd)
    {
      if cmd in k {
      } else if cmd in t {
      } else {
        assert StorageCommand(cmd);
      }
    }
  }

  /** Nothing up to the end of the NFS server stage mounts the share. */
  lemma BeforeMounting(ips: seq<Entry>, k: seq<Command>, keys: seq<Entry>, size: int, cpu: int, ram: int)
    requires forall cmd :: cmd in k ==> cmd.Exec? && (cmd.op.KeyGen? || cmd.op.ReadFile?)
    ensures NoneOf(Preamble(size, cpu, ram) + UpdateEtcHosts(ips) + k + SetupSshKeys(keys) + SetupNfsServer(), MountsShare)
  {
    EtcHostsShape(ips);
  }

  /** Nothing from the NFS clients on publishes the share. */
  lemma AfterPublishing(size: int)
    ensures NoneOf(SetupNfsCommon(size) + CreateMpiHosts(size), PublishesShare)
  {
    MpiHostsShape(size);
    PathsDistinct();
  }

  /** After discovery nothing is launched: every stage runs commands on VMs. */
  lemma StagesLaunchNothing(ips: seq<Entry>, gen: KeyGeneration, size: int)
    requires forall cmd :: cmd in gen.commands ==> cmd.Exec? && (cmd.op.KeyGen? || cmd.op.ReadFile?)
    ensures Launched(Stages(ips, gen, size)) == {}
  {
    var h, m := UpdateEtcHosts(ips), HostListAppends(size);
    var st := Stages(ips, gen, size);
    forall cmd | cmd in st
      ensures !cmd.Launch?
    {
      if cmd in h {
        var i :| 0 <= i < |h| && h[i] == cmd;
      } else if cmd in m {
        var i :| 0 <= i < |m| && m[i] == cmd;
      }
    }
    NoLaunches(st);
  }

  /** Regrouping the preamble and the six stages around the cut after the second stage. */
  lemma Regroup(pre: seq<Command>, a: seq<Command>, b: seq<Command>, c: seq<Command>, d: seq<Command>,
                e: seq<Command>, f: seq<Command>)
    ensures pre + (a + b + c + d + e + f) == (pre + a + b) + (c + d + e + f)
    ensures pre + (a + b + c + d + e + f) == (pre + a + b) + c + (d + e + f)
  {
  }

  /** The same around the cut after the first stage. */
  lemma RegroupFirst(pre: seq<Command>, a: seq<Command>, b: seq<Command>, c: seq<Command>, d: seq<Command>,
                     e: seq<Command>, f: seq<Command>)
    ensures pre + (a + b + c + d + e + f) == (pre + a) + (b + c + d + e + f)
  {
  }

  /** The same around the cut after the fourth stage. */
  lemma RegroupFourth(pre: seq<Command>, a: seq<Command>, b: seq<Command>, c: seq<Command>, d: seq<Command>,
                      e: seq<Command>, f: seq<Command>)
    ensures pre + (a + b + c + d + e + f) == (pre + a + b + c + d) + (e + f)
  {
  }

  /** The key barrier on the log of the stages, for any key-generation commands. */
  lemma StagesBarrier(ips: seq<Entry>, gen: KeyGeneration, size: int, cpu: int, ram: int)
    requires forall cmd :: cmd in gen.commands ==> cmd.Exec? && (cmd.op.KeyGen? || cmd.op.ReadFile?)
    ensures KeysGeneratedFirst(Preamble(size, cpu, ram) + Stages(ips, gen, size))
  {
    var pre, h, t := Preamble(size, cpu, ram), UpdateEtcHosts(ips), SetupSshKeys(gen.keys);
    var sv, cm, mh := SetupNfsServer(), SetupNfsCommon(size), CreateMpiHosts(size);
    Regroup(pre, h, gen.commands, t, sv, cm, mh);
    BeforeDistribution(ips, gen.commands, size, cpu, ram);
    AfterGeneration(gen.keys, size);
    Barrier(pre + h + gen.commands, t + sv + cm + mh, GeneratesKey, DistributesKey);
  }

  /** The host barrier on the log of the stages: `/etc/hosts` is complete before any node is reached by name. */
  lemma StagesHostsFirst(ips: seq<Entry>, gen: KeyGeneration, size: int, cpu: int, ram: int)
    requires forall cmd :: cmd in gen.commands ==> cmd.Exec? && (cmd.op.KeyGen? || cmd.op.ReadFile?)
    ensures Precedes(Preamble(size, cpu, ram) + Stages(ips, gen, size), WritesHosts, ReachesByName)
  {
    var pre, h, t := Preamble(size, cpu, ram), UpdateEtcHosts(ips), SetupSshKeys(gen.keys);
    var sv, cm, mh := SetupNfsServer(), SetupNfsCommon(size), CreateMpiHosts(size);
    RegroupFirst(pre, h, gen.commands, t, sv, cm, mh);
    BeforeReaching(ips, size, cpu, ram);
    AfterHosts(gen.commands, gen.keys, size);
    Barrier(pre + h, gen.commands + t + sv + cm + mh, WritesHosts, ReachesByName);
  }

  /** The export barrier on the log of the stages: the share is published before any node mounts it. */
  lemma StagesExportFirst(ips: seq<Entry>, gen: KeyGeneration, size: int, cpu: int, ram: int)
    requires forall cmd :: cmd in gen.commands ==> cmd.Exec? && (cmd.op.KeyGen? || cmd.op.ReadFile?)
    ensures SharePublished(Preamble(size, cpu, ram) + Stages(ips, gen, size))
    ensures Precedes(Preamble(size, cpu, ram) + Stages(ips, gen, size), PublishesShare, MountsShare)
  {
    var pre, h, t := Preamble(size, cpu, ram), UpdateEtcHosts(ips), SetupSshKeys(gen.keys);
    var sv, cm, mh := SetupNfsServer(), SetupNfsCommon(size), CreateMpiHosts(size);
    RegroupFourth(pre, h, gen.commands, t, sv, cm, mh);
    assert sv[1] == Exec(Manager, AppendLine(Exports, ExportsLine)) && sv[2] == Exec(Manager, ExportAll);
    assert sv[3] == Exec(Manager, RestartService(NfsService));
    assert SharePublished(pre + h + gen.commands + t + sv);
    BeforeMounting(ips, gen.commands, gen.keys, size, cpu, ram);
    AfterPublishing(size);
    Barrier(pre + h + gen.commands + t + sv, cm + mh, PublishesShare, MountsShare);
  }

  /**
    The key barrier: every `ssh-keygen` and every `cat` of a public key in a completed
    run is issued before every append to `authorized_keys` and every ssh session.
   */
  lemma KeyBarrier(c: State, size: int, cpu: int, ram: int, listing: Listing, keyOf: string -> string)
    requires Completes(listing)
    ensures KeysGeneratedFirst(SetUp(c, size, cpu, ram, listing, keyOf).trace.log)
  {
    SetUpCompleted(c, size, cpu, ram, listing, keyOf);
    StagesBarrier(GetVmIps(listing).ips, GenerateSshKeys(size, keyOf), size, cpu, ram);
  }

  /**
    The host barrier: in a completed run every append to `/etc/hosts` is issued before
    every ssh session and every mount, which name `manager` and the workers.
   */
  lemma HostsBarrier(c: State, size: int, cpu: int, ram: int, listing: Listing, keyOf: string -> string)
    requires Completes(listing)
    ensures Precedes(SetUp(c, size, cpu, ram, listing, keyOf).trace.log, WritesHosts, ReachesByName)
  {
    SetUpCompleted(c, size, cpu, ram, listing, keyOf);
    StagesHostsFirst(GetVmIps(listing).ips, GenerateSshKeys(size, keyOf), size, cpu, ram);
  }

  /**
    The export barrier: in a completed run `manager` appends the export line, runs
    `exportfs -a` and restarts the NFS server before any worker mounts the share.
   */
  lemma ExportBarrier(c: State, size: int, cpu: int, ram: int, listing: Listing, keyOf: string -> string)
    requires Completes(listing)
    ensures SharePublished(SetUp(c, size, cpu, ram, listing, keyOf).trace.log)
    ensures Precedes(SetUp(c, size, cpu, ram, listing, keyOf).trace.log, PublishesShare, MountsShare)
  {
    SetUpCompleted(c, size, cpu, ram, listing, keyOf);
    StagesExportFirst(GetVmIps(listing).ips, GenerateSshKeys(size, keyOf), size, cpu, ram);
  }

  /**
    The lines one node's file gains in a completed run, file by file: the other
    discovered nodes in `/etc/hosts`, the other collected keys in `authorized_keys`,
    the export on `manager`, the mount on each worker, the host list on `manager`.
   */
  function Written(ips: seq<Entry>, keys: seq<Entry>, size: int, node: string, path: string): seq<string> {
    if path == EtcHosts then
      if node in Names(ips) then MapLines(Others(ips, node), HostLine) else []
    else if path == AuthorizedKeys then
      if node in Names(keys) then MapLines(Others(keys, node), KeyLine) else []
    else if path == Exports then
      if node == Manager then [ExportsLine] else []
    else if path == Fstab then
      if IsWorker(node, size) then [FstabLine] else []
    else if path == MpiHosts then
      if node == Manager then NodeNames(size) else []
    else []
  }

  lemma {:induction false} NoAppends(cmds: seq<Command>, node: string, path: string)
    requires forall cmd :: cmd in cmds ==> !cmd.Exec? || !cmd.op.AppendLine?
    ensures AppendedTo(cmds, node, path) == []
    decreases |cmds|
  {
    if |cmds| > 0 {
      assert cmds[0] in cmds;
      assert forall cmd :: cmd in cmds[1..] ==> cmd in cmds;
      NoAppends(cmds[1..], node, path);
    }
  }

  /** The appends of six consecutive stages are the stages' appends in order. */
  lemma AppendedToSix(a: seq<Command>, b: seq<Command>, c: seq<Command>, d: seq<Command>, e: seq<Command>,
                      f: seq<Command>, node: string, path: string)
    ensures AppendedTo(a + b + c + d + e + f, node, path)
         == AppendedTo(a, node, path) + AppendedTo(b, node, path) + AppendedTo(c, node, path)
            + AppendedTo(d, node, path) + AppendedTo(e, node, path) + AppendedTo(f, node, path)
  {
    AppendedToConcat(a, b, node, path);
    AppendedToConcat(a + b, c, node, path);
    AppendedToConcat(a + b + c, d, node, path);
    AppendedToConcat(a + b + c + d, e, node, path);
    AppendedToConcat(a + b + c + d + e, f, node, path);
  }

  /** The five file paths the stages append to are different files. */
  lemma PathsDistinct()
    ensures EtcHosts != AuthorizedKeys && EtcHosts != Exports && EtcHosts != Fstab && EtcHosts != MpiHosts
    ensures AuthorizedKeys != Exports && AuthorizedKeys != Fstab && AuthorizedKeys != MpiHosts
    ensures Exports != Fstab && Exports != MpiHosts && Fstab != MpiHosts
  {
  }

  lemma EtcHostsAppends(ips: seq<Entry>, node: string, path: string)
    requires UniqueNames(ips)
    ensures AppendedTo(UpdateEtcHosts(ips), node, path)
         == if path == EtcHosts && node in Names(ips) then MapLines(Others(ips, node), HostLine) else []
  {
    HostsCommandsAppend(Pairs(ips, ips), node, path);
    LinesForPairs(ips, ips, node, HostLine);
  }

  lemma AuthorizedKeysAppends(keys: seq<Entry>, node: string, path: string)
    requires UniqueNames(keys)
    ensures AppendedTo(SetupSshKeys(keys), node, path)
         == if path == AuthorizedKeys && node in Names(keys) then MapLines(Others(keys, node), KeyLine) else []
  {
    TrustCommandsAppend(Pairs(keys, keys), node, path);
    LinesForPairs(keys, keys, node, KeyLine);
  }

  /** The same lines collected stage by stage: what each stage appends to the file, in stage order. */
  function ByStage(ips: seq<Entry>, keys: seq<Entry>, size: int, node: string, path: string): seq<string> {
    (if path == EtcHosts && node in Names(ips) then MapLines(Others(ips, node), HostLine) else [])
    + (if path == AuthorizedKeys && node in Names(keys) then MapLines(Others(keys, node), KeyLine) else [])
    + (if node == Manager && path == Exports then [ExportsLine] else [])
    + (if path == Fstab && IsWorker(node, size) then [FstabLine] else [])
    + (if node == Manager && path == MpiHosts then NodeNames(size) else [])
  }

  /** Since the five paths differ, at most one stage writes to a file, so by file and by stage agree. */
  lemma WrittenParts(ips: seq<Entry>, keys: seq<Entry>, size: int, node: string, path: string)
    ensures Written(ips, keys, size, node, path) == ByStage(ips, keys, size, node, path)
  {
    if path == EtcHosts {
      WrittenPartEtcHosts(ips, keys, size, node, path);
    } else if path == AuthorizedKeys {
      WrittenPartAuthorizedKeys(ips, keys, size, node, path);
    } else if path == Exports {
      WrittenPartExports(ips, keys, size, node, path);
    } else if path == Fstab {
      WrittenPartFstab(ips, keys, size, node, path);
    } else if path == MpiHosts {
      WrittenPartMpiHosts(ips, keys, size, node, path);
    } else {
      WrittenPartOther(ips, keys, size, node, path);
    }
  }

  /** `/etc/hosts` is written by one stage only. */
  lemma WrittenPartEtcHosts(ips: seq<Entry>, keys: seq<Entry>, size: int, node: string, path: string)
    requires path == EtcHosts
    ensures Written(ips, keys, size, node, path) == ByStage(ips, keys, size, node, path)
  {
    PathsDistinct();
    var w := if node in Names(ips) then MapLines(Others(ips, node), HostLine) else [];
    assert ByStage(ips, keys, size, node, path) == w + [] + [] + [] + [];
    assert w + [] + [] + [] + [] == w;
  }

  /** `authorized_keys` is written by one stage only. */
  lemma WrittenPartAuthorizedKeys(ips: seq<Entry>, keys: seq<Entry>, size: int, node: string, path: string)
    requires path == AuthorizedKeys
    ensures Written(ips, keys, size, node, path) == ByStage(ips, keys, size, node, path)
  {
    PathsDistinct();
    var w := if node in Names(keys) then MapLines(Others(keys, node), KeyLine) else [];
    assert ByStage(ips, keys, size, node, path) == [] + w + [] + [] + [];
    assert [] + w + [] + [] + [] == w;
  }

  /** `/etc/exports` is written by one stage only. */
  lemma WrittenPartExports(ips: seq<Entry>, keys: seq<Entry>, size: int, node: string, path: string)
    requires path == Exports
    ensures Written(ips, keys, size, node, path) == ByStage(ips, keys, size, node, path)
  {
    PathsDistinct();
    var w := if node == Manager then [ExportsLine] else [];
    assert ByStage(ips, keys, size, node, path) == [] + [] + w + [] + [];
    assert [] + [] + w + [] + [] == w;
  }

  /** `/etc/fstab` is written by one stage only. */
  lemma WrittenPartFstab(ips: seq<Entry>, keys: seq<Entry>, size: int, node: string, path: string)
    requires path == Fstab
    ensures Written(ips, keys, size, node, path) == ByStage(ips, keys, size, node, path)
  {
    PathsDistinct();
    var w := if IsWorker(node, size) then [FstabLine] else [];
    assert ByStage(ips, keys, size, node, path) == [] + [] + [] + w + [];
    assert [] + [] + [] + w + [] == w;
  }

  /** `mpi_hosts` is written by one stage only. */
  lemma WrittenPartMpiHosts(ips: seq<Entry>, keys: seq<Entry>, size: int, node: string, path: string)
    requires path == MpiHosts
    ensures Written(ips, keys, size, node, path) == ByStage(ips, keys, size, node, path)
  {
    PathsDistinct();
    var w := if node == Manager then NodeNames(size) else [];
    assert ByStage(ips, keys, size, node, path) == [] + [] + [] + [] + w;
    assert [] + [] + [] + [] + w == w;
  }

  /** No stage writes any other file. */
  lemma WrittenPartOther(ips: seq<Entry>, keys: seq<Entry>, size: int, node: string, path: string)
    requires path != EtcHosts && path != AuthorizedKeys && path != Exports && path != Fstab && path != MpiHosts
    ensures Written(ips, keys, size, node, path) == ByStage(ips, keys, size, node, path)
  {
    assert ByStage(ips, keys, size, node, path) == [] + [] + [] + [] + [];
  }

  /** The appends of the stages, one stage at a time. */
  lemma StagesAppends(ips: seq<Entry>, gen: KeyGeneration, size: int, node: string, path: string)
    requires UniqueNames(ips) && UniqueNames(gen.keys)
    requires forall cmd :: cmd in gen.commands ==> cmd.Exec? && (cmd.op.KeyGen? || cmd.op.ReadFile?)
    ensures AppendedTo(Stages(ips, gen, size), node, path) == Written(ips, gen.keys, size, node, path)
  {
    var h, t := UpdateEtcHosts(ips), SetupSshKeys(gen.keys);
    var sv, cm, mh := SetupNfsServer(), SetupNfsCommon(size), CreateMpiHosts(size);
    AppendedToSix(h, gen.commands, t, sv, cm, mh, node, path);
    EtcHostsAppends(ips, node, path);
    NoAppends(gen.commands, node, path);
    AuthorizedKeysAppends(gen.keys, node, path);
    SetupNfsServerAppends(node, path);
    SetupNfsCommonAppends(size, node, path);
    CreateMpiHostsAppends(size, node, path);
    WrittenParts(ips, gen.keys, size, node, path);
    var a1 := AppendedTo(h, node, path);
    assert a1 + AppendedTo(gen.commands, node, path) == a1;
  }

  /** The nodes after the preamble, and their files, which the launches leave as they were. */
  lemma PreambleEffect(c: State, size: int, cpu: int, ram: int, node: string, path: string)
    ensures node in Perform(c, Preamble(size, cpu, ram)) <==> node in c || node in NodeNames(size)
    ensures Lines(Perform(c, Preamble(size, cpu, ram)), node, path) == Lines(c, node, path)
  {
    var l := LaunchVms(size, cpu, ram);
    var c1 := Perform(c, l);
    PerformConcat(c, l, [List]);
    assert Perform(c1, [List]) == c1;
    PerformNodes(c, l);
    LaunchVmsNames(size, cpu, ram);
    LaunchesKeepLines(c, l, node, path);
  }

  /**
    Every file of every node after a completed run: its lines before the run
    followed by exactly what `Written` lists, the keys being those collected from
    `manager, worker1, …` whatever the discovery returned. New VMs start with no
    lines.
   */
  lemma SetUpFiles(c: State, size: int, cpu: int, ram: int, listing: Listing, keyOf: string -> string,
                   node: string, path: string)
    requires Completes(listing)
    requires node in c || node in NodeNames(size)
    ensures Lines(SetUp(c, size, cpu, ram, listing, keyOf).trace.cluster, node, path)
         == Lines(c, node, path) + Written(GetVmIps(listing).ips, GenerateSshKeys(size, keyOf).keys, size, node, path)
  {
    SetUpCompleted(c, size, cpu, ram, listing, keyOf);
    var ips := GetVmIps(listing).ips;
    var gen := GenerateSshKeys(size, keyOf);
    var c1 := Perform(c, Preamble(size, cpu, ram));
    PreambleEffect(c, size, cpu, ram, node, path);
    PerformLines(c1, Stages(ips, gen, size), node, path);
    AscendingUnique(ips);
    GeneratedKeysUnique(size, keyOf);
    StagesAppends(ips, gen, size, node, path);
  }

  lemma WrittenHostList(ips: seq<Entry>, keys: seq<Entry>, size: int)
    ensures Written(ips, keys, size, Manager, MpiHosts) == NodeNames(size)
  {
    PathsDistinct();
  }

  /**
    The host list: a completed run appends `manager, worker1, …` to whatever
    `mpi_hosts` held, so from a fresh cluster it is exactly that list.
   */
  lemma SetUpHostList(c: State, size: int, cpu: int, ram: int, listing: Listing, keyOf: string -> string)
    requires Completes(listing)
    ensures Lines(SetUp(c, size, cpu, ram, listing, keyOf).trace.cluster, Manager, MpiHosts)
         == Lines(c, Manager, MpiHosts) + NodeNames(size)
    ensures Manager !in c ==> Lines(SetUp(c, size, cpu, ram, listing, keyOf).trace.cluster, Manager, MpiHosts) == NodeNames(size)
  {
    NodeNamesShape(size);
    if Manager in c || size >= 1 {
      SetUpFiles(c, size, cpu, ram, listing, keyOf, Manager, MpiHosts);
      WrittenHostList(GetVmIps(listing).ips, GenerateSshKeys(size, keyOf).keys, size);
    } else {
      // `manager` is never launched, so there is no file to append to.
      SetUpCompleted(c, size, cpu, ram, listing, keyOf);
      var gen := GenerateSshKeys(size, keyOf);
      var c1 := Perform(c, Preamble(size, cpu, ram));
      PreambleEffect(c, size, cpu, ram, Manager, MpiHosts);
      StagesLaunchNothing(GetVmIps(listing).ips, gen, size);
      PerformNodes(c1, Stages(GetVmIps(listing).ips, gen, size));
    }
  }

  /** Blind appends: a second completed run on the result lists every node twice. */
  lemma SetUpRerunHostList(c: State, size: int, cpu: int, ram: int, listing: Listing, keyOf: string -> string,
                           listing2: Listing, keyOf2: string -> string)
    requires Completes(listing) && Completes(listing2)
    ensures var c2 := SetUp(c, size, cpu, ram, listing, keyOf).trace.cluster;
            Lines(SetUp(c2, size, cpu, ram, listing2, keyOf2).trace.cluster, Manager, MpiHosts)
            == Lines(c, Manager, MpiHosts) + NodeNames(size) + NodeNames(size)
  {
    var c2 := SetUp(c, size, cpu, ram, listing, keyOf).trace.cluster;
    SetUpHostList(c, size, cpu, ram, listing, keyOf);
    SetUpHostList(c2, size, cpu, ram, listing2, keyOf2);
  }

  /** `for i in range(3)` names `manager, worker1, worker2`. */
  lemma NodeNamesThree()
    ensures NodeNames(3) == [Manager, "worker1", "worker2"]
  {
    assert NodeName(1) == "worker1";
    assert NodeName(2) == "worker2";
  }

  lemma {:induction false} NoSsh(cmds: seq<Command>)
    requires forall cmd :: cmd in cmds ==> !cmd.Exec? || !cmd.op.Ssh?
    ensures SshCalls(cmds) == []
    decreases |cmds|
  {
    if |cmds| > 0 {
      assert cmds[0] in cmds;
      assert forall cmd :: cmd in cmds[1..] ==> cmd in cmds;
      NoSsh(cmds[1..]);
    }
  }

  /** The stages after key distribution open no ssh session. */
  lemma StorageNoSsh(size: int)
    ensures SshCalls(SetupNfsServer() + SetupNfsCommon(size) + CreateMpiHosts(size)) == []
  {
    var s := SetupNfsServer() + SetupNfsCommon(size) + CreateMpiHosts(size);
    var m := HostListAppends(size);
    forall cmd | cmd in s
      ensures !cmd.Exec? || !cmd.op.Ssh?
    {
      if cmd in m {
        var i :| 0 <= i < |m| && m[i] == cmd;
      }
    }
    NoSsh(s);
  }

  /** The stages before key distribution open no ssh session. */
  lemma PrefixNoSsh(ips: seq<Entry>, k: seq<Command>, size: int, cpu: int, ram: int)
    requires forall cmd :: cmd in k ==> cmd.Exec? && (cmd.op.KeyGen? || cmd.op.ReadFile?)
    ensures SshCalls(Preamble(size, cpu, ram) + UpdateEtcHosts(ips) + k) == []
  {
    var p := Preamble(size, cpu, ram) + UpdateEtcHosts(ips) + k;
    EtcHostsShape(ips);
    assert forall cmd :: cmd in p ==> !cmd.Exec? || !cmd.op.Ssh?;
    NoSsh(p);
  }

  /** Only key distribution opens ssh sessions. */
  lemma StagesSsh(ips: seq<Entry>, gen: KeyGeneration, size: int, cpu: int, ram: int)
    requires forall cmd :: cmd in gen.commands ==> cmd.Exec? && (cmd.op.KeyGen? || cmd.op.ReadFile?)
    ensures SshCalls(Preamble(size, cpu, ram) + Stages(ips, gen, size)) == SshCalls(SetupSshKeys(gen.keys))
  {
    var pre, h, t := Preamble(size, cpu, ram), UpdateEtcHosts(ips), SetupSshKeys(gen.keys);
    var sv, cm, mh := SetupNfsServer(), SetupNfsCommon(size), CreateMpiHosts(size);
    Regroup(pre, h, gen.commands, t, sv, cm, mh);
    var p := pre + h + gen.commands;
    var s := sv + cm + mh;
    PrefixNoSsh(ips, gen.commands, size, cpu, ram);
    StorageNoSsh(size);
    SshCallsConcat(p, t);
    SshCallsConcat(p + t, s);
  }

  /**
    A completed run opens one ssh session from O to V for every ordered pair of
    different names among `manager, worker1, …`, n·(n−1) in all, whatever the
    discovery returned.
   */
  lemma SetUpSshCalls(c: State, size: int, cpu: int, ram: int, listing: Listing, keyOf: string -> string)
    requires Completes(listing)
    ensures var log := SetUp(c, size, cpu, ram, listing, keyOf).trace.log;
            |SshCalls(log)| == Count(size) * (Count(size) - 1)
            && forall from, to :: (from, to) in SshCalls(log) <==> from in NodeNames(size) && to in NodeNames(size) && from != to
  {
    SetUpCompleted(c, size, cpu, ram, listing, keyOf);
    var gen := GenerateSshKeys(size, keyOf);
    StagesSsh(GetVmIps(listing).ips, gen, size, cpu, ram);
    GeneratedKeysUnique(size, keyOf);
    SetupSshKeysCallCount(gen.keys);
    forall from, to
      ensures (from, to) in SshCalls(SetupSshKeys(gen.keys)) <==> from in NodeNames(size) && to in NodeNames(size) && from != to
    {
      SetupSshKeysCallPairs(gen.keys, from, to);
    }
  }

  /** The three-node cluster: the fresh host list and the six ssh sessions. */
  lemma ThreeNodes(c: State, cpu: int, ram: int, listing: Listing, keyOf: string -> string)
    requires Completes(listing) && Manager !in c
    ensures Lines(SetUp(c, 3, cpu, ram, listing, keyOf).trace.cluster, Manager, MpiHosts) == [Manager, "worker1", "worker2"]
    ensures |SshCalls(SetUp(c, 3, cpu, ram, listing, keyOf).trace.log)| == 6
  {
    NodeNamesThree();
    SetUpHostList(c, 3, cpu, ram, listing, keyOf);
    SetUpSshCalls(c, 3, cpu, ram, listing, keyOf);
  }
}

=== FILE: cluster.dfy ===
/**
  The abstract cluster and the commands issued to it through `multipass`.

  A cluster state maps each existing VM name to the text files the scripts
  append to, each a sequence of lines. A command log records every
  `multipass` invocation in order. `Perform` is the effect of a log on a
  state: every write is an unconditional append, and a failing command
  (launching a name that already exists, executing on a VM that does not
  exist) changes nothing, because no return code is acted upon.
 */
module Cluster {

  type Files = map<string, seq<string>>
  type State = map<string, Files>

  /** The head node. */
  const Manager := "manager"

  const CloudInit := "cloud-init.yaml"
  const EtcHosts := "/etc/hosts"
  const KeyFile := "/home/ubuntu/.ssh/id_rsa"
  const PublicKeyFile := "/home/ubuntu/.ssh/id_rsa.pub"
  const AuthorizedKeys := "/home/ubuntu/.ssh/authorized_keys"
  const CloudDir := "/home/ubuntu/cloud"
  const Exports := "/etc/exports"
  const ExportsLine := "/home/ubuntu/cloud *(rw,sync,no_root_squash,no_subtree_check)"
  const NfsService := "nfs-kernel-server"
  const NfsExport := "manager:/home/ubuntu/cloud"
  const Fstab := "/etc/fstab"
  const FstabLine := "manager:/home/ubuntu/cloud /home/ubuntu/cloud nfs"
  const MpiHosts := "/home/ubuntu/cloud/mpi_hosts"

  /** What `multipass exec <node> -- …` runs on the node. */
  datatype RemoteOp =
    | AppendLine(path: string, line: string)     // echo '<line>' >> <path>
    | Touch(path: string)
    | MakeDir(path: string)
    | KeyGen(comment: string, keyFile: string)   // ssh-keygen -q -t rsa -C <comment> -f <keyFile> -N ""
    | ReadFile(path: string)                     // cat <path>
    | Ssh(target: string)                        // ssh <target> -q -o StrictHostKeyChecking=no echo …
    | Mount(source: string, mountPoint: string)  // mount -t nfs <source> <mountPoint>
    | ExportAll                                  // exportfs -a
    | RestartService(service: string)
    | TestFile(path: string)                     // test -f <path>
    | CompileC(output: string, source: string)   // mpicc -o <output> <source>
    | MpiRun(command: string, program: string)   // <command> <program>

  /** One `multipass` invocation. */
  datatype Command =
    | Launch(name: string, cpus: int, ramMb: int, cloudInit: string)
    | List
    | Exec(node: string, op: RemoteOp)
    | Transfer(localPath: string, node: string, remoteDir: string)

  /** The content of a file; an absent VM or file reads as empty. */
  function Lines(c: State, node: string, path: string): seq<string> {
    if node in c && path in c[node] then c[node][path] else []
  }

  /** The effect of one command. */
  function Apply(c: State, cmd: Command): State {
    match cmd
    case Launch(name, _, _, _) =>
      if name in c then c else c[name := map[]]
    case Exec(node, AppendLine(path, line)) =>
      if node in c then c[node := c[node][path := Lines(c, node, path) + [line]]] else c
    case Exec(node, Touch(path)) =>
      if node in c && path !in c[node] then c[node := c[node][path := []]] else c
    case _ => c
  }

  /** The effect of a log, first command first. */
  function Perform(c: State, cmds: seq<Command>): State
    decreases |cmds|
  {
    if |cmds| == 0 then c else Perform(Apply(c, cmds[0]), cmds[1..])
  }

  /** The line one command appends to one file of one node, if any. */
  function AppendOf(cmd: Command, node: string, path: string): seq<string> {
    match cmd
    case Exec(n, AppendLine(p, line)) => if n == node && p == path then [line] else []
    case _ => []
  }

  /** The lines a log appends to one file of one node, in order. */
  function AppendedTo(cmds: seq<Command>, node: string, path: string): seq<string> {
    if |cmds| == 0 then [] else AppendOf(cmds[0], node, path) + AppendedTo(cmds[1..], node, path)
  }

  /** The names a log launches. */
  function Launched(cmds: seq<Command>): set<string> {
    if |cmds| == 0 then {}
    else (if cmds[0].Launch? then {cmds[0].name} else {}) + Launched(cmds[1..])
  }

  /** The nodes after a log are those before it plus those it launched: nothing is ever deleted. */
  lemma {:induction false} PerformNodes(c: State, cmds: seq<Command>)
    ensures Perform(c, cmds).Keys == c.Keys + Launched(cmds)
    decreases |cmds|
  {
    if |cmds| > 0 {
      PerformNodes(Apply(c, cmds[0]), cmds[1..]);
    }
  }

  /**
    Blind appends: on an existing node, a file after a log is the file before it
    followed by exactly the lines the log appended to it.
   */
  lemma {:induction false} PerformLines(c: State, cmds: seq<Command>, node: string, path: string)
    requires node in c
    ensures Lines(Perform(c, cmds), node, path) == Lines(c, node, path) + AppendedTo(cmds, node, path)
    decreases |cmds|
  {
    if |cmds| > 0 {
      var c' := Apply(c, cmds[0]);
      assert node in c';
      assert Lines(c', node, path) == Lines(c, node, path) + AppendOf(cmds[0], node, path);
      PerformLines(c', cmds[1..], node, path);
    }
  }

  /** Running a log and then another is running their concatenation. */
  lemma {:induction false} PerformConcat(c: State, a: seq<Command>, b: seq<Command>)
    ensures Perform(c, a + b) == Perform(Perform(c, a), b)
    decreases |a|
  {
    if |a| > 0 {
      assert (a + b)[0] == a[0];
      assert (a + b)[1..] == a[1..] + b;
      PerformConcat(Apply(c, a[0]), a[1..], b);
    } else {
      assert a + b == b;
    }
  }

  lemma {:induction false} AppendedToConcat(a: seq<Command>, b: seq<Command>, node: string, path: string)
    ensures AppendedTo(a + b, node, path) == AppendedTo(a, node, path) + AppendedTo(b, node, path)
  {
    if |a| > 0 {
      assert (a + b)[0] == a[0];
      assert (a + b)[1..] == a[1..] + b;
      AppendedToConcat(a[1..], b, node, path);
    } else {
      assert a + b == b;
    }
  }

  /** A log without launches launches nothing. */
  lemma {:induction false} NoLaunches(cmds: seq<Command>)
    requires forall cmd :: cmd in cmds ==> !cmd.Launch?
    ensures Launched(cmds) == {}
    decreases |cmds|
  {
    if |cmds| > 0 {
      assert cmds[0] in cmds;
      assert forall cmd :: cmd in cmds[1..] ==> cmd in cmds;
      NoLaunches(cmds[1..]);
    }
  }

  /** A log of launches leaves every file's content as it was (new VMs start with none). */
  lemma {:induction false} LaunchesKeepLines(c: State, cmds: seq<Command>, node: string, path: string)
    requires forall i :: 0 <= i < |cmds| ==> cmds[i].Launch?
    ensures Lines(Perform(c, cmds), node, path) == Lines(c, node, path)
    decreases |cmds|
  {
    if |cmds| > 0 {
      LaunchesKeepLines(Apply(c, cmds[0]), cmds[1..], node, path);
    }
  }

  /** A state and the log that produced it. */
  datatype Trace = Trace(cluster: State, log: seq<Command>)

  /** Issues a log after a trace. */
  function Issue(t: Trace, cmds: seq<Command>): (r: Trace)
    ensures |r.log| == |t.log| + |cmds| && r.log[..|t.log|] == t.log
    ensures r.cluster.Keys == t.cluster.Keys + Launched(cmds)
  {
    PerformNodes(t.cluster, cmds);
    Trace(Perform(t.cluster, cmds), t.log + cmds)
  }
}

=== FILE: decimal.dfy ===
/**
  Decimal rendering of integers, as Python's `str(k)` and f-string interpolation
  produce it (node names `worker{i}` and the `-n {k}` argument of `mpiexec`),
  together with a parser that reads such a rendering back.
 */
module Decimal {
  import opened Optional

  predicate IsDigit(c: char) {
    '0' <= c <= '9'
  }

  predicate AllDigits(s: string) {
    forall i :: 0 <= i < |s| ==> IsDigit(s[i])
  }

  function DigitValue(c: char): (d: nat)
    requires IsDigit(c)
    ensures d < 10
  {
    c as int - '0' as int
  }

  function DigitChar(d: nat): (c: char)
    requires d < 10
    ensures IsDigit(c) && DigitValue(c) == d
  {
    ('0' as int + d) as char
  }

  /** The shortest decimal rendering of `n`: no sign, no leading zero. */
  function NatToString(n: nat): (s: string)
    ensures |s| > 0 && AllDigits(s)
    ensures |s| > 1 ==> s[0] != '0'
    decreases n
  {
    if n < 10 then [DigitChar(n)] else NatToString(n / 10) + [DigitChar(n % 10)]
  }

  /** The value of a digit string, most significant digit first. */
  function DigitsValue(s: string): nat
    requires AllDigits(s)
  {
    if |s| == 0 then 0 else DigitsValue(s[..|s| - 1]) * 10 + DigitValue(s[|s| - 1])
  }

  /** Python's `str(k)`: a leading `-` for negative values, then the digits of |k|. */
  function IntToString(k: int): (r: string)
    ensures |r| > 0 && (r[0] == '-' <==> k < 0)
    ensures var digits := if k < 0 then r[1..] else r;
            |digits| > 0 && AllDigits(digits) && (|digits| > 1 ==> digits[0] != '0')
  {
    if k < 0 then
      var s := NatToString(-k);
      assert ("-" + s)[1..] == s;
      "-" + s
    else NatToString(k)
  }

  /** Reads back an optional `-` followed by at least one digit. */
  function ParseInt(s: string): Option<int> {
    if |s| > 0 && s[0] == '-' then
      if |s| > 1 && AllDigits(s[1..]) then Some(-(DigitsValue(s[1..]) as int)) else None
    else if |s| > 0 && AllDigits(s) then Some(DigitsValue(s))
    else None
  }

  lemma {:induction false} NatRoundTrip(n: nat)
    ensures DigitsValue(NatToString(n)) == n
    decreases n
  {
    if n >= 10 {
      var s := NatToString(n / 10);
      var t := s + [DigitChar(n % 10)];
      assert t[..|t| - 1] == s;
      NatRoundTrip(n / 10);
    }
  }

  /** The rendering of every integer parses back to that integer. */
  lemma IntRoundTrip(k: int)
    ensures ParseInt(IntToString(k)) == Some(k)
  {
    if k < 0 {
      var s := NatToString(-k);
      var t := "-" + s;
      assert t[0] == '-' && |t| > 1;
      assert t[1..] == s;
      NatRoundTrip(-k);
      assert ParseInt(t) == Some(-(DigitsValue(s) as int));
    } else {
      var s := NatToString(k);
      assert IsDigit(s[0]);
      NatRoundTrip(k);
      assert ParseInt(s) == Some(DigitsValue(s));
    }
  }

  /** Distinct numbers render differently (so `worker{i}` names never collide). */
  lemma NatToStringInjective(m: nat, n: nat)
    requires NatToString(m) == NatToString(n)
    ensures m == n
  {
    NatRoundTrip(m);
    NatRoundTrip(n);
  }

  /** The rendering of `k` is never `-` alone and never contains a space. */
  lemma IntToStringShape(k: int)
    ensures |IntToString(k)| > 0
    ensures ' ' !in IntToString(k)
  {
    var s := NatToString(if k < 0 then -k else k);
    assert forall i :: 0 <= i < |s| ==> s[i] != ' ';
  }
}

=== FILE: discovery.dfy ===
/**
  `get_vm_ips`: from the instances `multipass list` reports, keep those in state
  `Running`, sort by name, and map each name to its first IPv4 address, in a
  dict whose iteration order is the sorted name order.
 */
module Discovery {
  import opened Optional
  import opened OrderedDict
  import opened LexOrder

  /** One record of the `list` array of `multipass list --format=json`. */
  datatype Instance = Instance(name: string, state: string, ipv4: seq<string>)

  /** The return code of `multipass list` and the instances it reported. */
  datatype Listing = Listing(returnCode: int, instances: seq<Instance>)

  /**
    `Found` is the returned dict; `ListFailed` is the `None` returned on a non-zero
    return code; `MissingAddress` is the `IndexError` raised by `vm["ipv4"][0]` on a
    Running instance without addresses.
   */
  datatype Discovered = Found(ips: seq<Entry>) | ListFailed | MissingAddress

  predicate IsRunning(vm: Instance) {
    vm.state == "Running"
  }

  predicate SortedByName(s: seq<Instance>) {
    forall i, j :: 0 <= i < j < |s| ==> LessOrEqual(s[i].name, s[j].name)
  }

  predicate StrictlyAscending(ks: seq<string>) {
    forall i, j :: 0 <= i < j < |ks| ==> Less(ks[i], ks[j])
  }

  lemma SortedCons(h: Instance, t: seq<Instance>)
    requires SortedByName(t)
    requires forall e :: e in t ==> LessOrEqual(h.name, e.name)
    ensures SortedByName([h] + t)
  {
    var s := [h] + t;
    forall i, j | 0 <= i < j < |s|
      ensures LessOrEqual(s[i].name, s[j].name)
    {
      assert s[j] == t[j - 1];
      if i > 0 {
        assert s[i] == t[i - 1];
      } else {
        assert t[j - 1] in t;
      }
    }
  }

  /** Everything in a rearrangement of `s` plus `x` is `x` or an element of `s`. */
  lemma RearrangedFrom(x: Instance, s: seq<Instance>, t: seq<Instance>, e: Instance)
    requires multiset(t) == multiset(s) + multiset{x} && e in t && e != x
    ensures e in s
  {
    assert e in multiset(t);
  }

  /** An element no greater than the head of a sorted sequence is no greater than any of it. */
  lemma BelowSorted(x: Instance, s: seq<Instance>)
    requires SortedByName(s) && |s| > 0 && LessOrEqual(x.name, s[0].name)
    ensures forall e :: e in s ==> LessOrEqual(x.name, e.name)
  {
    forall e | e in s
      ensures LessOrEqual(x.name, e.name)
    {
      var k :| 0 <= k < |s| && s[k] == e;
      if k > 0 {
        LessOrEqualTransitive(x.name, s[0].name, e.name);
      }
    }
  }

  /** One step of insertion sort: `x` goes before the first element not less than it. */
  function Insert(x: Instance, s: seq<Instance>): (r: seq<Instance>)
    requires SortedByName(s)
    ensures SortedByName(r)
    ensures multiset(r) == multiset(s) + multiset{x}
  {
    if |s| == 0 then [x]
    else if Less(s[0].name, x.name) then
      var t := Insert(x, s[1..]);
      assert s == [s[0]] + s[1..];
      assert forall e :: e in t ==> LessOrEqual(s[0].name, e.name) by {
        forall e | e in t
          ensures LessOrEqual(s[0].name, e.name)
        {
          if e != x {
            RearrangedFrom(x, s[1..], t, e);
            var k :| 0 <= k < |s[1..]| && s[1..][k] == e;
            assert s[k + 1] == e;
          }
        }
      }
      SortedCons(s[0], t);
      [s[0]] + t
    else
      LessTotal(x.name, s[0].name);
      BelowSorted(x, s);
      SortedCons(x, s);
      [x] + s
  }

  /** `vm_info.sort(key=lambda vm: vm["name"])`: a sorted rearrangement of the same instances. */
  function SortByName(vms: seq<Instance>): (r: seq<Instance>)
    ensures SortedByName(r)
    ensures multiset(r) == multiset(vms)
  {
    if |vms| == 0 then []
    else
      assert vms == [vms[0]] + vms[1..];
      Insert(vms[0], SortByName(vms[1..]))
  }

  /** The instances named `k`, in their order in `s`. */
  function Named(s: seq<Instance>, k: string): seq<Instance> {
    if |s| == 0 then []
    else (if s[0].name == k then [s[0]] else []) + Named(s[1..], k)
  }

  /** Insertion puts `x` ahead of every instance with the same name. */
  lemma {:induction false} InsertNamed(x: Instance, s: seq<Instance>, k: string)
    requires SortedByName(s)
    ensures Named(Insert(x, s), k) == (if x.name == k then [x] else []) + Named(s, k)
  {
    if |s| > 0 && Less(s[0].name, x.name) {
      assert SortedByName(s[1..]);
      InsertNamed(x, s[1..], k);
      InsertPasses(x, s);
      NamedPasses(x, s, Insert(x, s[1..]), k);
    } else {
      InsertStops(x, s);
      NamedCons(x, s, k);
    }
  }

  /** `x` passes a head whose name is smaller. */
  lemma InsertPasses(x: Instance, s: seq<Instance>)
    requires SortedByName(s) && |s| > 0 && Less(s[0].name, x.name)
    ensures Insert(x, s) == [s[0]] + Insert(x, s[1..])
  {
  }

  /** `x` stops before a head whose name is not smaller. */
  lemma InsertStops(x: Instance, s: seq<Instance>)
    requires SortedByName(s) && !(|s| > 0 && Less(s[0].name, x.name))
    ensures Insert(x, s) == [x] + s
  {
  }

  /** Passing a head of a smaller name never reorders the instances named `k`. */
  lemma NamedPasses(x: Instance, s: seq<Instance>, t: seq<Instance>, k: string)
    requires |s| > 0 && Less(s[0].name, x.name)
    requires Named(t, k) == (if x.name == k then [x] else []) + Named(s[1..], k)
    ensures Named([s[0]] + t, k) == (if x.name == k then [x] else []) + Named(s, k)
  {
    var rest := Named(s[1..], k);
    NamedCons(s[0], t, k);
    NamedCons(s[0], s[1..], k);
    assert [s[0]] + s[1..] == s;
    if x.name == k {
      LessIrreflexive(k);
      assert s[0].name != k;
      assert Named(s, k) == [] + rest;
      assert Named([s[0]] + t, k) == [] + ([x] + rest);
    } else if s[0].name == k {
      assert Named(t, k) == [] + rest;
      assert Named([s[0]] + t, k) == [s[0]] + rest;
    } else {
      assert Named(t, k) == [] + rest;
      assert Named([s[0]] + t, k) == [] + rest;
    }
  }

  lemma NamedCons(x: Instance, s: seq<Instance>, k: string)
    ensures Named([x] + s, k) == (if x.name == k then [x] else []) + Named(s, k)
  {
    assert ([x] + s)[1..] == s;
  }

  /**
    The sort is stable, as Python's `list.sort` is: the instances of any one name
    keep their listing order. `IpsOfLast` then names the one whose address wins.
   */
  lemma {:induction false} SortByNameStable(vms: seq<Instance>, k: string)
    ensures Named(SortByName(vms), k) == Named(vms, k)
  {
    if |vms| > 0 {
      SortByNameStable(vms[1..], k);
      InsertNamed(vms[0], SortByName(vms[1..]), k);
    }
  }

  /** No Running instance lacks an address, so `vm["ipv4"][0]` never raises. */
  predicate AddressesPresent(vms: seq<Instance>) {
    forall i :: 0 <= i < |vms| && IsRunning(vms[i]) ==> |vms[i].ipv4| > 0
  }

  /** `{vm["name"]: vm["ipv4"][0] for vm in vms if vm["state"] == "Running"}`, built left to right. */
  function IpsOf(vms: seq<Instance>): seq<Entry>
    requires AddressesPresent(vms)
  {
    if |vms| == 0 then []
    else
      var d := IpsOf(vms[..|vms| - 1]);
      var vm := vms[|vms| - 1];
      if IsRunning(vm) then Put(d, vm.name, vm.ipv4[0]) else d
  }

  predicate RunningNamed(vms: seq<Instance>, i: int, k: string) {
    0 <= i < |vms| && IsRunning(vms[i]) && vms[i].name == k
  }

  /** Index `i` holds the last Running instance named `k`. */
  predicate LastRunning(vms: seq<Instance>, i: int, k: string) {
    RunningNamed(vms, i, k) && forall j :: i < j < |vms| ==> !RunningNamed(vms, j, k)
  }

  /** Looking up `k` after the last instance is the lookup before it, unless that instance is a Running `k`. */
  lemma IpsOfStep(vms: seq<Instance>, k: string)
    requires AddressesPresent(vms) && |vms| > 0
    ensures RunningNamed(vms, |vms| - 1, k) ==> Get(IpsOf(vms), k) == Some(vms[|vms| - 1].ipv4[0])
    ensures !RunningNamed(vms, |vms| - 1, k) ==> Get(IpsOf(vms), k) == Get(IpsOf(vms[..|vms| - 1]), k)
    ensures forall j :: 0 <= j < |vms| - 1 ==> (RunningNamed(vms, j, k) <==> RunningNamed(vms[..|vms| - 1], j, k))
  {
  }

  /** A name is a key exactly when some Running instance carries it. */
  lemma {:induction false} IpsOfHasKey(vms: seq<Instance>, k: string)
    requires AddressesPresent(vms)
    ensures Get(IpsOf(vms), k).Some? <==> exists i :: RunningNamed(vms, i, k)
  {
    if |vms| > 0 {
      var p := vms[..|vms| - 1];
      IpsOfStep(vms, k);
      IpsOfHasKey(p, k);
      if exists i :: RunningNamed(vms, i, k) {
        var i :| RunningNamed(vms, i, k);
        if i < |vms| - 1 {
          assert RunningNamed(p, i, k);
        }
      }
      if exists i :: RunningNamed(p, i, k) {
        var i :| RunningNamed(p, i, k);
        assert RunningNamed(vms, i, k);
      }
    }
  }

  /** The value under a key is the first address of some Running instance of that name. */
  lemma {:induction false} IpsOfValue(vms: seq<Instance>, k: string)
    requires AddressesPresent(vms)
    ensures Get(IpsOf(vms), k).Some? ==>
              exists i :: RunningNamed(vms, i, k) && vms[i].ipv4[0] == Get(IpsOf(vms), k).value
  {
    if |vms| > 0 {
      var p := vms[..|vms| - 1];
      IpsOfStep(vms, k);
      IpsOfValue(p, k);
      if !RunningNamed(vms, |vms| - 1, k) && Get(IpsOf(p), k).Some? {
        var i :| RunningNamed(p, i, k) && p[i].ipv4[0] == Get(IpsOf(p), k).value;
        assert RunningNamed(vms, i, k);
      }
    }
  }

  /** When several Running instances share a name, the last one's address wins. */
  lemma {:induction false} IpsOfLast(vms: seq<Instance>, i: int, k: string)
    requires AddressesPresent(vms) && LastRunning(vms, i, k)
    ensures Get(IpsOf(vms), k) == Some(vms[i].ipv4[0])
  {
    var p := vms[..|vms| - 1];
    IpsOfStep(vms, k);
    if i < |vms| - 1 {
      forall j | i < j < |p|
        ensures !RunningNamed(p, j, k)
      {
        assert !RunningNamed(vms, j, k);
      }
      IpsOfLast(p, i, k);
    }
  }

  /** Built from a name-sorted sequence, the keys come out in strictly increasing order. */
  lemma {:induction false} IpsOfAscending(vms: seq<Instance>)
    requires AddressesPresent(vms) && SortedByName(vms)
    ensures StrictlyAscending(Names(IpsOf(vms)))
  {
    if |vms| > 0 {
      var n := |vms|;
      var p := vms[..n - 1];
      var vm := vms[n - 1];
      var d := IpsOf(p);
      assert SortedByName(p) by {
        assert forall i :: 0 <= i < |p| ==> p[i] == vms[i];
      }
      IpsOfAscending(p);
      if IsRunning(vm) && vm.name !in Names(d) {
        var ks := Names(d) + [vm.name];
        assert Names(IpsOf(vms)) == ks;
        assert forall i :: 0 <= i < |p| ==> p[i] == vms[i];
        KeysBelow(p, vm.name);
        forall i, j | 0 <= i < j < |ks|
          ensures Less(ks[i], ks[j])
        {
          if j < |ks| - 1 {
            assert ks[i] == Names(d)[i] && ks[j] == Names(d)[j];
          } else {
            assert ks[i] == Names(d)[i] && ks[i] in Names(d);
          }
        }
      } else {
        assert Names(IpsOf(vms)) == Names(d);
      }
    }
  }

  /** Names all at most `top` make a dict whose keys are all at most `top`. */
  lemma KeysBelow(p: seq<Instance>, top: string)
    requires AddressesPresent(p)
    requires forall i :: 0 <= i < |p| ==> LessOrEqual(p[i].name, top)
    ensures forall k :: k in Names(IpsOf(p)) ==> LessOrEqual(k, top)
  {
    var d := IpsOf(p);
    forall k | k in Names(d)
      ensures LessOrEqual(k, top)
    {
      GetFindsStored(d, k);
      IpsOfHasKey(p, k);
      var m :| RunningNamed(p, m, k);
    }
  }

  predicate RunningNamesUnique(vms: seq<Instance>) {
    forall a, b :: a in vms && b in vms && IsRunning(a) && IsRunning(b) && a.name == b.name ==> a == b
  }

  /** `get_vm_ips()` given what `multipass list` returned. */
  function GetVmIps(listing: Listing): (r: Discovered)
    ensures r.ListFailed? <==> listing.returnCode != 0
    ensures r.MissingAddress? <==>
              listing.returnCode == 0
              && exists vm :: vm in listing.instances && IsRunning(vm) && |vm.ipv4| == 0
    ensures r.Found? ==> StrictlyAscending(Names(r.ips))
    ensures r.Found? ==>
              forall k :: k in Names(r.ips) <==> exists vm :: vm in listing.instances && IsRunning(vm) && vm.name == k
    ensures r.Found? ==>
              forall e :: e in r.ips ==>
                exists vm :: vm in listing.instances && IsRunning(vm) && vm.name == e.name
                             && |vm.ipv4| > 0 && vm.ipv4[0] == e.value
    ensures r.Found? && RunningNamesUnique(listing.instances) ==>
              forall vm :: vm in listing.instances && IsRunning(vm) ==> Get(r.ips, vm.name) == Some(vm.ipv4[0])
  {
    if listing.returnCode != 0 then ListFailed
    else
      var sorted := SortByName(listing.instances);
      assert forall vm :: vm in sorted <==> vm in listing.instances by {
        forall vm
          ensures vm in sorted <==> vm in listing.instances
        {
          assert vm in sorted <==> vm in multiset(sorted);
          assert vm in listing.instances <==> vm in multiset(listing.instances);
        }
      }
      if !AddressesPresent(sorted) then
        assert exists vm :: vm in listing.instances && IsRunning(vm) && |vm.ipv4| == 0 by {
          var i :| 0 <= i < |sorted| && IsRunning(sorted[i]) && |sorted[i].ipv4| == 0;
          assert sorted[i] in sorted;
        }
        MissingAddress
      else
        var ips := IpsOf(sorted);
        IpsOfAscending(sorted);
        assert !exists vm :: vm in listing.instances && IsRunning(vm) && |vm.ipv4| == 0 by {
          forall vm | vm in listing.instances && IsRunning(vm)
            ensures |vm.ipv4| > 0
          {
            var i :| 0 <= i < |sorted| && sorted[i] == vm;
          }
        }
        FoundContents(listing.instances, sorted);
        Found(ips)
  }

  /** The dict's keys, values and uniqueness, read off the sorted sequence. */
  lemma FoundContents(instances: seq<Instance>, sorted: seq<Instance>)
    requires AddressesPresent(sorted)
    requires forall vm :: vm in sorted <==> vm in instances
    ensures forall k :: k in Names(IpsOf(sorted)) <==> exists vm :: vm in instances && IsRunning(vm) && vm.name == k
    ensures forall e :: e in IpsOf(sorted) ==>
              exists vm :: vm in instances && IsRunning(vm) && vm.name == e.name
                           && |vm.ipv4| > 0 && vm.ipv4[0] == e.value
    ensures RunningNamesUnique(instances) ==>
              forall vm :: vm in instances && IsRunning(vm) ==> Get(IpsOf(sorted), vm.name) == Some(vm.ipv4[0])
  {
    var ips := IpsOf(sorted);
    forall k
      ensures k in Names(ips) <==> exists vm :: vm in instances && IsRunning(vm) && vm.name == k
    {
      GetFindsStored(ips, k);
      IpsOfHasKey(sorted, k);
      if exists vm :: vm in instances && IsRunning(vm) && vm.name == k {
        var vm :| vm in instances && IsRunning(vm) && vm.name == k;
        var i :| 0 <= i < |sorted| && sorted[i] == vm;
        assert RunningNamed(sorted, i, k);
      }
      if k in Names(ips) {
        var i :| RunningNamed(sorted, i, k);
        assert sorted[i] in sorted;
      }
    }
    forall e | e in ips
      ensures exists vm :: vm in instances && IsRunning(vm) && vm.name == e.name
                           && |vm.ipv4| > 0 && vm.ipv4[0] == e.value
    {
      var i :| 0 <= i < |ips| && ips[i] == e;
      assert Names(ips)[i] == e.name;
      IpsUnique(sorted);
      GetStoredEntry(ips, e);
      IpsOfValue(sorted, e.name);
      var m :| RunningNamed(sorted, m, e.name) && sorted[m].ipv4[0] == e.value;
      assert sorted[m] in sorted;
    }
    if RunningNamesUnique(instances) {
      forall vm | vm in instances && IsRunning(vm)
        ensures Get(ips, vm.name) == Some(vm.ipv4[0])
      {
        IpsOfHasKey(sorted, vm.name);
        IpsOfValue(sorted, vm.name);
        var i :| 0 <= i < |sorted| && sorted[i] == vm;
        assert RunningNamed(sorted, i, vm.name);
        var m :| RunningNamed(sorted, m, vm.name) && sorted[m].ipv4[0] == Get(ips, vm.name).value;
        assert sorted[m] in sorted;
      }
    }
  }

  /** The dict never holds a key twice. */
  lemma {:induction false} IpsUnique(vms: seq<Instance>)
    requires AddressesPresent(vms)
    ensures UniqueNames(IpsOf(vms))
  {
    if |vms| > 0 {
      var p := vms[..|vms| - 1];
      var vm := vms[|vms| - 1];
      IpsUnique(p);
      if IsRunning(vm) {
        PutUnique(IpsOf(p), vm.name, vm.ipv4[0]);
      }
    }
  }

  /** Strictly increasing keys are in particular unique keys. */
  lemma AscendingUnique(d: seq<Entry>)
    requires StrictlyAscending(Names(d))
    ensures UniqueNames(d)
  {
    forall i, j | 0 <= i < j < |d|
      ensures d[i].name != d[j].name
    {
      LessAsymmetric(Names(d)[i], Names(d)[j]);
    }
  }
}

=== FILE: job_launcher.dfy ===
/**
  The job launcher: `compile_file(file_path)` copies a C source to `manager` and
  compiles it with `mpicc` in the shared directory, `run_mpi_program(file_name,
  num_threads)` runs a compiled artifact with `mpiexec` over the host list, and
  `main` chooses between them from the `-c`, `-r` and `-n` options.
 */
module JobLauncher {
  import opened Optional
  import opened Cluster
  import Decimal

  /** The home directory that `manager:cloud` is relative to. */
  const Home := "/home/ubuntu"

  const FileNotFound := "Error: File not found."
  const ArtifactNotFound := "Error: Compiled file not found on manager machine."
  const CompiledMessage := "File compiled successfully."
  const UsageMessage := "Please provide either --c or --r option."

  /** The index of the last occurrence of `c` in `s`, or -1 (Python's `str.rfind`). */
  function LastIndex(s: string, c: char): (r: int)
    ensures -1 <= r < |s|
    ensures r >= 0 ==> s[r] == c
    ensures forall j :: r < j < |s| ==> s[j] != c
  {
    if |s| == 0 then -1
    else if s[|s| - 1] == c then |s| - 1
    else LastIndex(s[..|s| - 1], c)
  }

  /** `os.path.basename(p)`: what follows the last `/`. */
  function Basename(p: string): (b: string)
    ensures |b| <= |p| && p[|p| - |b|..] == b
    ensures forall k :: 0 <= k < |b| ==> b[k] != '/'
    ensures |b| < |p| ==> p[|p| - |b| - 1] == '/'
  {
    p[LastIndex(p, '/') + 1..]
  }

  /** The file name has a character other than `.` before position `d`. */
  predicate NonDotBefore(s: string, d: int)
    requires d <= |s|
  {
    exists i :: 0 <= i < d && s[i] != '.'
  }

  /**
    `os.path.splitext(b)` on a name without `/`: the extension starts at the last
    `.`, unless every character before that `.` is itself a `.` (`.bashrc` has no
    extension).
   */
  function SplitExt(b: string): (r: (string, string))
    ensures r.0 + r.1 == b
    ensures r.1 == [] || (r.1[0] == '.' && '.' !in r.1[1..])
    ensures r.1 != [] ==> NonDotBefore(r.0, |r.0|)
    ensures r.1 == [] ==> forall i, j :: 0 <= j < i < |b| && b[i] == '.' ==> b[j] == '.'
  {
    var d := LastIndex(b, '.');
    if d >= 0 && NonDotBefore(b, d) then
      assert b[..d] + b[d..] == b;
      assert forall k :: 0 <= k < |b[d..]| - 1 ==> b[d..][1..][k] == b[d + 1 + k];
      var root := b[..d];
      assert forall i :: 0 <= i < d ==> root[i] == b[i];
      (root, b[d..])
    else
      (b, [])
  }

  /** The name `mpicc -o` writes: the basename with its last extension removed. */
  function ArtifactName(path: string): (r: string)
    ensures |r| <= |Basename(path)| && Basename(path)[..|r|] == r
    ensures forall k :: 0 <= k < |r| ==> r[k] != '/'
  {
    var b := Basename(path);
    var parts := SplitExt(b);
    assert b[..|parts.0|] == parts.0;
    parts.0
  }

  /** A C source in a directory: `dir/prog.c` compiles to `prog`. */
  lemma ArtifactOfSourceInDirectory()
    ensures ArtifactName("dir/prog.c") == "prog"
  {
    assert LastIndex("dir/prog.c", '/') == 3 by {
      assert "dir/prog.c"[3] == '/';
      assert forall j :: 3 < j < 10 ==> "dir/prog.c"[j] != '/';
    }
    assert Basename("dir/prog.c") == "prog.c";
    assert LastIndex("prog.c", '.') == 4;
    assert "prog.c"[0] != '.';
  }

  /** Only the last extension goes: `a.tar.gz` gives `a.tar`. */
  lemma ArtifactOfDoubleExtension()
    ensures ArtifactName("a.tar.gz") == "a.tar"
  {
    assert LastIndex("a.tar.gz", '/') == -1 by {
      assert forall j :: 0 <= j < 8 ==> "a.tar.gz"[j] != '/';
    }
    assert Basename("a.tar.gz") == "a.tar.gz";
    assert LastIndex("a.tar.gz", '.') == 5;
    assert "a.tar.gz"[0] != '.';
  }

  /** A leading dot is not an extension: `.bashrc` stays `.bashrc`. */
  lemma ArtifactOfDotFile()
    ensures ArtifactName(".bashrc") == ".bashrc"
  {
    assert LastIndex(".bashrc", '/') == -1 by {
      assert forall j :: 0 <= j < 7 ==> ".bashrc"[j] != '/';
    }
    assert Basename(".bashrc") == ".bashrc";
    assert LastIndex(".bashrc", '.') == 0 by {
      assert ".bashrc"[0] == '.';
      assert forall j :: 0 < j < 7 ==> ".bashrc"[j] != '.';
    }
    assert !NonDotBefore(".bashrc", 0);
  }

  /** A name without a dot is its own artifact: `src/hello` gives `hello`. */
  lemma ArtifactWithoutExtension()
    ensures ArtifactName("src/hello") == "hello"
  {
    assert LastIndex("src/hello", '/') == 3 by {
      assert "src/hello"[3] == '/';
      assert forall j :: 3 < j < 9 ==> "src/hello"[j] != '/';
    }
    assert "src/hello"[4..] == "hello";
    assert LastIndex("hello", '.') == -1 by {
      assert forall j :: 0 <= j < 5 ==> "hello"[j] != '.';
    }
  }

  /** What one invocation printed and issued. */
  datatype Dispatch = Dispatch(commands: seq<Command>, messages: seq<string>)

  /** Where `multipass transfer <p> <node>:<dir>` puts the file on the node. */
  function Landing(cmd: Command): string
    requires cmd.Transfer?
  {
    Home + "/" + cmd.remoteDir + "/" + Basename(cmd.localPath)
  }

  /** The transfer lands in the shared directory, and the artifact is the source without its extension. */
  lemma CompilePaths(base: string)
    ensures Home + "/" + "cloud" + "/" + base == CloudDir + "/" + base
    ensures CloudDir + "/" + SplitExt(base).0 + SplitExt(base).1 == CloudDir + "/" + base
  {
    assert Home + "/" + "cloud" == CloudDir;
    var (root, ext) := SplitExt(base);
    assert CloudDir + "/" + root + ext == CloudDir + "/" + (root + ext);
  }

  /**
    `compile_file(file_path)`; `present` is `os.path.exists(file_path)`. The
    compile reads the file where the transfer put it and writes the same path
    without its extension.
   */
  function CompileFile(path: string, present: bool): (r: Dispatch)
    ensures !present <==> r.commands == []
    ensures !present ==> r.messages == [FileNotFound]
    ensures present ==> r.messages == ["File " + Basename(path) + " transferred to manager."]
    ensures present ==>
              |r.commands| == 2
              && r.commands[0].Transfer? && r.commands[0].localPath == path && r.commands[0].node == Manager
              && r.commands[0].remoteDir == "cloud"
              && r.commands[1].Exec? && r.commands[1].node == Manager && r.commands[1].op.CompileC?
              && r.commands[1].op.source == Landing(r.commands[0])
              && r.commands[1].op.output + SplitExt(Basename(path)).1 == r.commands[1].op.source
              && r.commands[1].op.output == CloudDir + "/" + ArtifactName(path)
  {
    if !present then Dispatch([], [FileNotFound])
    else
      var base := Basename(path);
      var name := SplitExt(base).0;
      CompilePaths(base);
      Dispatch([Transfer(path, Manager, "cloud"), Exec(Manager, CompileC(CloudDir + "/" + name, CloudDir + "/" + base))],
               ["File " + base + " transferred to manager."])
  }

  /** The part of the `mpiexec` command that never changes. */
  const MpiBase := "mpiexec -hostfile " + MpiHosts

  /** The `mpiexec` command line for process count `n`; -1 stands for "not given". */
  function MpiCommand(n: int): (r: string)
    ensures |MpiBase| <= |r| && r[..|MpiBase|] == MpiBase
    ensures r == MpiBase <==> n == -1
    ensures n != -1 ==> r == MpiBase + " -n " + Decimal.IntToString(n)
  {
    if n != -1 then MpiBase + " -n " + Decimal.IntToString(n) else MpiBase
  }

  /** Reads the process count back out of an `mpiexec` command line. */
  function ProcessCountOf(cmd: string): Option<int> {
    var prefix := MpiBase + " -n ";
    if |cmd| > |prefix| && cmd[..|prefix|] == prefix then Decimal.ParseInt(cmd[|prefix|..]) else None
  }

  /** ` -n <k>` is present exactly when k ≠ -1, and it carries k, zero and negatives included. */
  lemma MpiCommandRoundTrip(n: int)
    ensures ProcessCountOf(MpiCommand(n)) == if n == -1 then None else Some(n)
  {
    var prefix := MpiBase + " -n ";
    if n != -1 {
      var s := Decimal.IntToString(n);
      Decimal.IntToStringShape(n);
      assert MpiCommand(n) == prefix + s;
      assert (prefix + s)[..|prefix|] == prefix && (prefix + s)[|prefix|..] == s;
      Decimal.IntRoundTrip(n);
    }
  }

  /**
    `run_mpi_program(file_name, num_threads)`; `testStatus` is the exit status of
    `test -f` on `manager`. The program run is the file just tested.
   */
  function RunMpiProgram(file: string, n: int, testStatus: int): (r: Dispatch)
    ensures |r.commands| >= 1 && r.commands[0] == Exec(Manager, TestFile(CloudDir + "/" + file))
    ensures |r.commands| == 2 <==> testStatus == 0
    ensures |r.commands| <= 2
    ensures testStatus != 0 ==> r.messages == [ArtifactNotFound]
    ensures testStatus == 0 ==>
              r.messages == []
              && r.commands[1].Exec? && r.commands[1].node == Manager && r.commands[1].op.MpiRun?
              && r.commands[1].op.program == r.commands[0].op.path
              && r.commands[1].op.command == MpiCommand(n)
              && ProcessCountOf(r.commands[1].op.command) == (if n == -1 then None else Some(n))
  {
    var test := Exec(Manager, TestFile(CloudDir + "/" + file));
    if testStatus != 0 then Dispatch([test], [ArtifactNotFound])
    else
      MpiCommandRoundTrip(n);
      Dispatch([test, Exec(Manager, MpiRun(MpiCommand(n), CloudDir + "/" + file))], [])
  }

  /** The parsed options. */
  datatype Args = Args(c: Option<string>, r: Option<string>, n: int)

  /** What `-n` is when not given. */
  const DefaultProcessCount := -1

  /** Python truthiness of an optional string: given and non-empty. */
  predicate Truthy(o: Option<string>) {
    o.Some? && |o.value| > 0
  }

  /** `main()` after option parsing. */
  function RunMpi(args: Args, sourcePresent: bool, testStatus: int): (r: Dispatch)
    ensures Truthy(args.c) ==> |r.messages| > 0 && r.messages[|r.messages| - 1] == CompiledMessage
    ensures !Truthy(args.c) ==> CompiledMessage !in r.messages
    ensures !Truthy(args.c) && !Truthy(args.r) ==> r == Dispatch([], [UsageMessage])
    ensures Truthy(args.c) ==>
              r.commands == CompileFile(args.c.value, sourcePresent).commands
              && r.messages == CompileFile(args.c.value, sourcePresent).messages + [CompiledMessage]
    ensures !Truthy(args.c) && Truthy(args.r) ==> r == RunMpiProgram(args.r.value, args.n, testStatus)
    ensures Truthy(args.c) ==> forall cmd :: cmd in r.commands ==> !cmd.Exec? || cmd.op.CompileC?
    ensures !Truthy(args.c) ==> forall cmd :: cmd in r.commands ==> cmd.Exec? && (cmd.op.TestFile? || cmd.op.MpiRun?)
  {
    if Truthy(args.c) then
      var d := CompileFile(args.c.value, sourcePresent);
      Dispatch(d.commands, d.messages + [CompiledMessage])
    else if Truthy(args.r) then
      RunMpiProgram(args.r.value, args.n, testStatus)
    else
      Dispatch([], [UsageMessage])
  }

  /** `-c` wins: with a non-empty `-c`, neither `-r`, `-n` nor the remote test matter. */
  lemma CompileTakesPrecedence(c: string, r1: Option<string>, r2: Option<string>, n1: int, n2: int,
                               present: bool, t1: int, t2: int)
    requires |c| > 0
    ensures RunMpi(Args(Some(c), r1, n1), present, t1) == RunMpi(Args(Some(c), r2, n2), present, t2)
  {
  }

  /** The success message follows a missing source too, with nothing issued. */
  lemma MissingSourceStillReportsSuccess(c: string, r: Option<string>, n: int, t: int)
    requires |c| > 0
    ensures RunMpi(Args(Some(c), r, n), false, t) == Dispatch([], [FileNotFound, CompiledMessage])
  {
  }

  /** Without `-n` the tested artifact runs under `mpiexec` with no process count at all. */
  lemma DefaultCountOmitted(file: string)
    requires |file| > 0
    ensures var d := RunMpi(Args(None, Some(file), DefaultProcessCount), false, 0);
            |d.commands| == 2 && d.commands[1].Exec? && d.commands[1].op.MpiRun?
            && d.commands[1].op.command == MpiBase
  {
    MpiCommandRoundTrip(DefaultProcessCount);
  }

  /** An empty `-c ""` is falsy and falls through to `-r`. */
  lemma EmptySourceFallsThrough(file: string, n: int, present: bool, t: int)
    requires |file| > 0
    ensures RunMpi(Args(Some(""), Some(file), n), present, t) == RunMpiProgram(file, n, t)
  {
  }
}

=== FILE: lex_order.dfy ===
/**
  Python's ordering of `str` values: code point by code point, a proper prefix
  before any of its extensions. `list.sort(key=lambda vm: vm["name"])` sorts by it.
 */
module LexOrder {

  /** `a < b` on Python strings. */
  predicate Less(a: string, b: string)
    decreases |a|
  {
    if |a| == 0 then |b| > 0
    else if |b| == 0 then false
    else if a[0] != b[0] then a[0] < b[0]
    else Less(a[1..], b[1..])
  }

  predicate LessOrEqual(a: string, b: string) {
    a == b || Less(a, b)
  }

  lemma {:induction false} LessIrreflexive(a: string)
    ensures !Less(a, a)
    decreases |a|
  {
    if |a| > 0 {
      LessIrreflexive(a[1..]);
    }
  }

  lemma {:induction false} LessTransitive(a: string, b: string, c: string)
    requires Less(a, b) && Less(b, c)
    ensures Less(a, c)
    decreases |a|
  {
    if |a| > 0 && a[0] == b[0] && b[0] == c[0] {
      LessTransitive(a[1..], b[1..], c[1..]);
    }
  }

  /** Any two different strings are ordered one way or the other. */
  lemma {:induction false} LessTotal(a: string, b: string)
    ensures a == b || Less(a, b) || Less(b, a)
    decreases |a|
  {
    if |a| > 0 && |b| > 0 && a[0] == b[0] {
      LessTotal(a[1..], b[1..]);
      if a[1..] == b[1..] {
        assert a == [a[0]] + a[1..] && b == [b[0]] + b[1..];
      }
    }
  }

  lemma LessAsymmetric(a: string, b: string)
    requires Less(a, b)
    ensures !Less(b, a) && a != b
  {
    LessIrreflexive(a);
    if Less(b, a) {
      LessTransitive(a, b, a);
    }
  }

  lemma LessOrEqualTransitive(a: string, b: string, c: string)
    requires LessOrEqual(a, b) && LessOrEqual(b, c)
    ensures LessOrEqual(a, c)
  {
    if a != b && b != c {
      LessTransitive(a, b, c);
    }
  }

  /** Names compare as text, not as numbers: `worker10` sorts before `worker2`. */
  lemma Worker10BeforeWorker2()
    ensures Less("worker10", "worker2")
    ensures !Less("worker2", "worker10")
  {
    LessAsymmetric("worker10", "worker2");
  }
}

=== FILE: mesh.dfy ===
/**
  The all-pairs iteration shared by `update_etc_hosts` and `setup_ssh_keys`:
  for each entry of a dict, for each entry of the same dict whose key differs,
  visit the ordered pair (outer, inner).
 */
module Mesh {
  import opened OrderedDict

  /** The entries of `all` whose key is not `a`, in order. */
  function Others(all: seq<Entry>, a: string): (r: seq<Entry>)
    ensures forall e :: e in r <==> e in all && e.name != a
  {
    if |all| == 0 then []
    else if all[0].name != a then [all[0]] + Others(all[1..], a)
    else Others(all[1..], a)
  }

  /** Leaving out one key keeps the others unique; leaving out a present key drops exactly one entry. */
  lemma {:induction false} OthersShape(all: seq<Entry>, a: string)
    requires UniqueNames(all)
    ensures UniqueNames(Others(all, a))
    ensures |Others(all, a)| == if a in Names(all) then |all| - 1 else |all|
  {
    if |all| > 0 {
      assert all == [all[0]] + all[1..];
      UniqueCons(all[0], all[1..]);
      OthersShape(all[1..], a);
      assert Names(all) == [all[0].name] + Names(all[1..]);
      var rest := Others(all[1..], a);
      if all[0].name != a {
        InNames(rest, all[0].name);
        InNames(all[1..], all[0].name);
        UniqueCons(all[0], rest);
      }
    }
  }

  /** The inner loop for the outer entry `x`. */
  function Row(x: Entry, all: seq<Entry>): (r: seq<(Entry, Entry)>)
    ensures |r| == |Others(all, x.name)|
    ensures forall i :: 0 <= i < |r| ==> r[i] == (x, Others(all, x.name)[i])
  {
    var o := Others(all, x.name);
    seq(|o|, i requires 0 <= i < |o| => (x, o[i]))
  }

  /** Both loops: `for x in outer: for y in all: if x.name != y.name: visit (x, y)`. */
  function Pairs(outer: seq<Entry>, all: seq<Entry>): seq<(Entry, Entry)> {
    if |outer| == 0 then [] else Row(outer[0], all) + Pairs(outer[1..], all)
  }

  /** Exactly the ordered pairs of entries with different keys are visited. */
  lemma {:induction false} PairsMembership(outer: seq<Entry>, all: seq<Entry>, x: Entry, y: Entry)
    ensures (x, y) in Pairs(outer, all) <==> x in outer && y in all && x.name != y.name
  {
    if |outer| > 0 {
      PairsMembership(outer[1..], all, x, y);
      var r := Row(outer[0], all);
      var o := Others(all, outer[0].name);
      if x == outer[0] && y in all && x.name != y.name {
        var i :| 0 <= i < |o| && o[i] == y;
        assert r[i] == (x, y);
      }
      if (x, y) in r {
        var i :| 0 <= i < |r| && r[i] == (x, y);
        assert o[i] == y;
      }
      assert outer == [outer[0]] + outer[1..];
    }
  }

  /** One more row of m visits on top of n−1 rows. */
  lemma MulStep(n: int, m: int)
    ensures m + (n - 1) * m == n * m
  {
  }

  /** With unique keys among `n` entries there are n·(n−1) visits. */
  lemma {:induction false} PairsCount(outer: seq<Entry>, all: seq<Entry>)
    requires UniqueNames(all)
    requires forall x :: x in outer ==> x.name in Names(all)
    ensures |Pairs(outer, all)| == |outer| * (|all| - 1)
  {
    if |outer| > 0 {
      var r := Row(outer[0], all);
      assert |r| == |all| - 1 by {
        assert outer[0] in outer;
        OthersShape(all, outer[0].name);
      }
      forall x | x in outer[1..]
        ensures x.name in Names(all)
      {
        assert x in outer;
      }
      PairsCount(outer[1..], all);
      assert |Pairs(outer, all)| == |r| + |Pairs(outer[1..], all)|;
      MulStep(|outer|, |all| - 1);
    }
  }

  lemma {:induction false} RowDistinct(x: Entry, all: seq<Entry>)
    requires UniqueNames(all)
    ensures Distinct(Row(x, all))
  {
    var o := Others(all, x.name);
    var r := Row(x, all);
    OthersShape(all, x.name);
    forall i, j | 0 <= i < j < |r|
      ensures r[i] != r[j]
    {
      assert o[i].name != o[j].name;
    }
  }

  /** With unique keys no pair is visited twice. */
  lemma {:induction false} PairsDistinct(outer: seq<Entry>, all: seq<Entry>)
    requires UniqueNames(outer) && UniqueNames(all)
    ensures Distinct(Pairs(outer, all))
  {
    if |outer| > 0 {
      var r := Row(outer[0], all);
      var rest := Pairs(outer[1..], all);
      RowDistinct(outer[0], all);
      PairsDistinct(outer[1..], all);
      forall i, j | 0 <= i < |r| && 0 <= j < |rest|
        ensures r[i] != rest[j]
      {
        var (x, y) := rest[j];
        assert rest[j] in rest;
        PairsMembership(outer[1..], all, x, y);
        var k :| 0 <= k < |outer[1..]| && outer[1..][k] == x;
        assert outer[0].name != outer[k + 1].name;
      }
      var p := r + rest;
      forall i, j | 0 <= i < j < |p|
        ensures p[i] != p[j]
      {
        if j < |r| {
        } else if i >= |r| {
          assert p[i] == rest[i - |r|] && p[j] == rest[j - |r|];
        } else {
          assert p[j] == rest[j - |r|];
        }
      }
    }
  }

  /** `line(y)` for every visited pair (x, y) whose outer key is `a`. */
  function LinesFor(ps: seq<(Entry, Entry)>, a: string, line: Entry -> string): seq<string> {
    if |ps| == 0 then []
    else (if ps[0].0.name == a then [line(ps[0].1)] else []) + LinesFor(ps[1..], a, line)
  }

  function MapLines(es: seq<Entry>, line: Entry -> string): (r: seq<string>)
    ensures |r| == |es|
    ensures forall i :: 0 <= i < |es| ==> r[i] == line(es[i])
  {
    if |es| == 0 then [] else [line(es[0])] + MapLines(es[1..], line)
  }

  lemma {:induction false} LinesForConcat(p: seq<(Entry, Entry)>, q: seq<(Entry, Entry)>, a: string, line: Entry -> string)
    ensures LinesFor(p + q, a, line) == LinesFor(p, a, line) + LinesFor(q, a, line)
  {
    if |p| > 0 {
      assert (p + q)[0] == p[0];
      assert (p + q)[1..] == p[1..] + q;
      LinesForConcat(p[1..], q, a, line);
    } else {
      assert p + q == q;
    }
  }

  lemma {:induction false} LinesForRow(x: Entry, all: seq<Entry>, a: string, line: Entry -> string)
    ensures LinesFor(Row(x, all), a, line) == if x.name == a then MapLines(Others(all, a), line) else []
  {
    var r := Row(x, all);
    var o := Others(all, x.name);
    if |r| > 0 {
      var r' := r[1..];
      var o' := o[1..];
      assert r' == seq(|o'|, i requires 0 <= i < |o'| => (x, o'[i]));
      LinesForRowTail(x, o', a, line);
    } else {
      assert MapLines(o, line) == [];
    }
    LinesForRowTail(x, o, a, line);
  }

  lemma {:induction false} LinesForRowTail(x: Entry, o: seq<Entry>, a: string, line: Entry -> string)
    ensures LinesFor(seq(|o|, i requires 0 <= i < |o| => (x, o[i])), a, line)
            == if x.name == a then MapLines(o, line) else []
  {
    var r := seq(|o|, i requires 0 <= i < |o| => (x, o[i]));
    if |o| > 0 {
      var o' := o[1..];
      assert r[1..] == seq(|o'|, i requires 0 <= i < |o'| => (x, o'[i]));
      LinesForRowTail(x, o', a, line);
    }
  }

  /**
    The lines produced for outer key `a`: one per other entry, in dict order,
    when `a` is a key visited once; none when `a` is not visited.
   */
  lemma {:induction false} LinesForPairs(outer: seq<Entry>, all: seq<Entry>, a: string, line: Entry -> string)
    requires UniqueNames(outer)
    ensures LinesFor(Pairs(outer, all), a, line)
            == if a in Names(outer) then MapLines(Others(all, a), line) else []
  {
    if |outer| > 0 {
      LinesForConcat(Row(outer[0], all), Pairs(outer[1..], all), a, line);
      LinesForRow(outer[0], all, a, line);
      assert outer == [outer[0]] + outer[1..];
      UniqueCons(outer[0], outer[1..]);
      LinesForPairs(outer[1..], all, a, line);
      assert Names(outer) == [outer[0].name] + Names(outer[1..]);
    }
  }
}

=== FILE: name_resolution.dfy ===
/**
  `update_etc_hosts(vm_ips)`: for every key A of the discovered dict and every
  other key B, append the line `<ip of B> <B>` to A's `/etc/hosts`.
 */
module NameResolution {
  import opened Cluster
  import opened OrderedDict
  import opened Mesh

  /** The `/etc/hosts` line naming one node. */
  function HostLine(e: Entry): string {
    e.value + " " + e.name
  }

  /** One append per visited pair (A, B), on A, naming B. */
  function HostsCommands(ps: seq<(Entry, Entry)>): (r: seq<Command>)
    ensures |r| == |ps|
    ensures forall i :: 0 <= i < |ps| ==> r[i] == Exec(ps[i].0.name, AppendLine(EtcHosts, HostLine(ps[i].1)))
    ensures forall cmd :: cmd in r ==> cmd.Exec? && cmd.op.AppendLine? && cmd.op.path == EtcHosts
  {
    if |ps| == 0 then []
    else [Exec(ps[0].0.name, AppendLine(EtcHosts, HostLine(ps[0].1)))] + HostsCommands(ps[1..])
  }

  function UpdateEtcHosts(ips: seq<Entry>): (r: seq<Command>)
    ensures |r| == |Pairs(ips, ips)|
    ensures forall cmd :: cmd in r ==> cmd.Exec? && cmd.op.AppendLine? && cmd.op.path == EtcHosts
  {
    HostsCommands(Pairs(ips, ips))
  }

  lemma {:induction false} HostsCommandsAppend(ps: seq<(Entry, Entry)>, node: string, path: string)
    ensures AppendedTo(HostsCommands(ps), node, path) == if path == EtcHosts then LinesFor(ps, node, HostLine) else []
  {
    if |ps| > 0 {
      HostsCommandsAppend(ps[1..], node, path);
      assert HostsCommands(ps)[1..] == HostsCommands(ps[1..]);
    }
  }

  /**
    Pair coverage: with n unique keys there are n·(n−1) appends, one for each
    ordered pair (A, B) of different keys, on A and naming B, and no other.
   */
  lemma UpdateEtcHostsPairs(ips: seq<Entry>)
    requires UniqueNames(ips)
    ensures |UpdateEtcHosts(ips)| == |ips| * (|ips| - 1)
    ensures forall a, b :: a in ips && b in ips && a.name != b.name ==>
              Exec(a.name, AppendLine(EtcHosts, HostLine(b))) in UpdateEtcHosts(ips)
    ensures forall cmd :: cmd in UpdateEtcHosts(ips) ==>
              exists a, b :: a in ips && b in ips && a.name != b.name
                             && cmd == Exec(a.name, AppendLine(EtcHosts, HostLine(b)))
  {
    var ps := Pairs(ips, ips);
    var r := UpdateEtcHosts(ips);
    forall x | x in ips
      ensures x.name in Names(ips)
    {
      var i :| 0 <= i < |ips| && ips[i] == x;
      assert Names(ips)[i] == x.name;
    }
    PairsCount(ips, ips);
    forall a, b | a in ips && b in ips && a.name != b.name
      ensures Exec(a.name, AppendLine(EtcHosts, HostLine(b))) in r
    {
      PairsMembership(ips, ips, a, b);
      var i :| 0 <= i < |ps| && ps[i] == (a, b);
      assert r[i] == Exec(a.name, AppendLine(EtcHosts, HostLine(b)));
    }
    forall cmd | cmd in r
      ensures exists a, b :: a in ips && b in ips && a.name != b.name
                             && cmd == Exec(a.name, AppendLine(EtcHosts, HostLine(b)))
    {
      var i :| 0 <= i < |r| && r[i] == cmd;
      var (a, b) := ps[i];
      assert ps[i] in ps;
      PairsMembership(ips, ips, a, b);
    }
  }

  /**
    The file effect: on a node A that is a key, `/etc/hosts` keeps its prior lines
    and gains one line per other key, in dict order, never its own; every other
    file, and every node that is not a key, is unchanged.
   */
  lemma UpdateEtcHostsEffect(c: State, ips: seq<Entry>, node: string, path: string)
    requires UniqueNames(ips) && node in c
    ensures Lines(Perform(c, UpdateEtcHosts(ips)), node, path)
         == Lines(c, node, path)
            + (if path == EtcHosts && node in Names(ips) then MapLines(Others(ips, node), HostLine) else [])
  {
    PerformLines(c, UpdateEtcHosts(ips), node, path);
    HostsCommandsAppend(Pairs(ips, ips), node, path);
    LinesForPairs(ips, ips, node, HostLine);
  }

  /** Blind appends: running the step twice writes every line twice. */
  lemma UpdateEtcHostsRerun(c: State, ips: seq<Entry>, node: string)
    requires UniqueNames(ips) && node in c && node in Names(ips)
    ensures Lines(Perform(Perform(c, UpdateEtcHosts(ips)), UpdateEtcHosts(ips)), node, EtcHosts)
         == Lines(c, node, EtcHosts) + MapLines(Others(ips, node), HostLine) + MapLines(Others(ips, node), HostLine)
  {
    var c1 := Perform(c, UpdateEtcHosts(ips));
    PerformNodes(c, UpdateEtcHosts(ips));
    UpdateEtcHostsEffect(c, ips, node, EtcHosts);
    UpdateEtcHostsEffect(c1, ips, node, EtcHosts);
  }
}

=== FILE: optional.dfy ===
/** The Some/None datatype used wherever the modelled code may produce no value. */
module Optional {

  datatype Option<+T> = None | Some(value: T)
}

=== FILE: ordered_dict.dfy ===
/**
  Python dictionaries with string keys and values, as the bootstrap script uses
  them (`vm_ips`, `ssh_keys`): a sequence of entries whose order is insertion
  order, where assigning to an existing key keeps that key's position.
 */
module OrderedDict {
  import opened Optional

  datatype Entry = Entry(name: string, value: string)

  /** The keys in iteration order. */
  function Names(d: seq<Entry>): (ks: seq<string>)
    ensures |ks| == |d|
    ensures forall i :: 0 <= i < |d| ==> ks[i] == d[i].name
  {
    if |d| == 0 then [] else [d[0].name] + Names(d[1..])
  }

  /** No two elements are equal. */
  predicate Distinct<T(==)>(s: seq<T>) {
    forall i, j :: 0 <= i < j < |s| ==> s[i] != s[j]
  }

  /** No key occurs twice. */
  predicate UniqueNames(d: seq<Entry>) {
    Distinct(Names(d))
  }

  /** A key is present exactly when some entry carries it. */
  lemma InNames(d: seq<Entry>, k: string)
    ensures k in Names(d) <==> exists e :: e in d && e.name == k
  {
    if k in Names(d) {
      var i :| 0 <= i < |d| && Names(d)[i] == k;
      assert d[i] in d;
    }
  }

  /** Keys stay unique when an entry is put in front exactly when its key is new. */
  lemma UniqueCons(x: Entry, r: seq<Entry>)
    ensures UniqueNames([x] + r) <==> x.name !in Names(r) && UniqueNames(r)
  {
    if UniqueNames([x] + r) {
      UniqueConsSplit(x, r);
    }
    if x.name !in Names(r) && UniqueNames(r) {
      UniqueConsJoin(x, r);
    }
  }

  lemma UniqueConsSplit(x: Entry, r: seq<Entry>)
    requires UniqueNames([x] + r)
    ensures x.name !in Names(r) && UniqueNames(r)
  {
    var d := [x] + r;
    forall j | 0 <= j < |r|
      ensures Names(r)[j] != x.name
    {
      assert d[0] == x && d[j + 1] == r[j];
    }
    forall i, j | 0 <= i < j < |r|
      ensures r[i].name != r[j].name
    {
      assert d[i + 1] == r[i] && d[j + 1] == r[j];
    }
  }

  lemma UniqueConsJoin(x: Entry, r: seq<Entry>)
    requires x.name !in Names(r) && UniqueNames(r)
    ensures UniqueNames([x] + r)
  {
    var d := [x] + r;
    forall i, j | 0 <= i < j < |d|
      ensures d[i].name != d[j].name
    {
      assert d[j] == r[j - 1];
      if i > 0 {
        assert d[i] == r[i - 1];
      } else {
        assert Names(r)[j - 1] == d[j].name;
      }
    }
  }

  /** Python `d.get(k)`. */
  function Get(d: seq<Entry>, k: string): Option<string> {
    if |d| == 0 then None
    else if d[0].name == k then Some(d[0].value)
    else Get(d[1..], k)
  }

  /** Python `d[k] = v`. */
  function Put(d: seq<Entry>, k: string, v: string): (r: seq<Entry>)
    ensures Names(r) == if k in Names(d) then Names(d) else Names(d) + [k]
    ensures k !in Names(d) ==> r == d + [Entry(k, v)]
    ensures Get(r, k) == Some(v)
    ensures forall k' :: k' != k ==> Get(r, k') == Get(d, k')
  {
    if |d| == 0 then [Entry(k, v)]
    else if d[0].name == k then [Entry(k, v)] + d[1..]
    else [d[0]] + Put(d[1..], k, v)
  }

  /** Assignment keeps the keys unique: an existing key keeps its place, a new one goes last. */
  lemma PutUnique(d: seq<Entry>, k: string, v: string)
    requires UniqueNames(d)
    ensures UniqueNames(Put(d, k, v))
  {
    var r := Put(d, k, v);
    forall i, j | 0 <= i < j < |r|
      ensures r[i].name != r[j].name
    {
      assert r[i].name == Names(r)[i] && r[j].name == Names(r)[j];
      assert Names(r)[i] == d[i].name;
      if j < |d| {
        assert Names(r)[j] == d[j].name;
      } else {
        assert Names(d)[i] == d[i].name;
      }
    }
  }

  /** A key is present exactly when a lookup finds a value, and that value is stored under it. */
  lemma {:induction false} GetFindsStored(d: seq<Entry>, k: string)
    ensures Get(d, k).Some? <==> k in Names(d)
    ensures Get(d, k).Some? ==> Entry(k, Get(d, k).value) in d
  {
    if |d| > 0 {
      GetFindsStored(d[1..], k);
      assert Names(d) == [d[0].name] + Names(d[1..]);
    }
  }

  /** With unique keys, every stored entry is what a lookup of its key returns. */
  lemma {:induction false} GetStoredEntry(d: seq<Entry>, e: Entry)
    requires UniqueNames(d) && e in d
    ensures Get(d, e.name) == Some(e.value)
  {
    if d[0] != e {
      assert e in d[1..];
      GetStoredEntry(d[1..], e);
    }
  }
}

=== FILE: provision.dfy ===
/**
  Node naming and `launch_vms`: index 0 is the head node `manager`, index i ≥ 1
  is `worker{i}`, and one `multipass launch` is issued per index of `range(size)`.
 */
module Provision {
  import opened Cluster
  import Decimal
  import opened OrderedDict

  /** The number of iterations of Python's `range(size)`. */
  function Count(size: int): nat {
    if size > 0 then size else 0
  }

  function NodeName(i: nat): string {
    if i == 0 then Manager else "worker" + Decimal.NatToString(i)
  }

  /** Different indices give different names. */
  lemma NodeNameInjective(i: nat, j: nat)
    requires NodeName(i) == NodeName(j)
    ensures i == j
  {
    if i == 0 || j == 0 {
      assert NodeName(i)[0] == NodeName(j)[0];
    } else {
      var a, b := Decimal.NatToString(i), Decimal.NatToString(j);
      assert a == NodeName(i)[6..] && b == NodeName(j)[6..];
      Decimal.NatToStringInjective(i, j);
    }
  }

  /** The names visited by `for i in range(size)`. */
  function NodeNames(size: int): (r: seq<string>)
    ensures |r| == Count(size)
    ensures forall i :: 0 <= i < |r| ==> r[i] == NodeName(i)
  {
    seq(Count(size), i requires 0 <= i < Count(size) => NodeName(i))
  }

  /** One more iteration of `range` adds one name at the end. */
  lemma NodeNamesSnoc(size: int)
    requires size > 0
    ensures NodeNames(size) == NodeNames(size - 1) + [NodeName(size - 1)]
  {
  }

  /** `manager` comes first, the names are pairwise distinct, and `manager` is among them iff size ≥ 1. */
  lemma NodeNamesShape(size: int)
    ensures size >= 1 ==> NodeNames(size)[0] == Manager
    ensures Distinct(NodeNames(size))
    ensures Manager in NodeNames(size) <==> size >= 1
  {
    forall i, j | 0 <= i < j < Count(size)
      ensures NodeNames(size)[i] != NodeNames(size)[j]
    {
      if NodeName(i) == NodeName(j) {
        NodeNameInjective(i, j);
      }
    }
    if Manager in NodeNames(size) {
      assert Count(size) > 0;
    }
  }

  /** `launch_vms(size, cpu, ram)`. */
  function LaunchVms(size: int, cpu: int, ram: int): (r: seq<Command>)
    ensures |r| == Count(size)
    ensures forall i :: 0 <= i < |r| ==> r[i] == Launch(NodeName(i), cpu, ram, CloudInit)
    decreases Count(size)
  {
    if size <= 0 then [] else LaunchVms(size - 1, cpu, ram) + [Launch(NodeName(size - 1), cpu, ram, CloudInit)]
  }

  /** The launches of a plan name exactly the nodes of `range(size)`. */
  lemma {:induction false} LaunchVmsNames(size: int, cpu: int, ram: int)
    ensures forall n :: n in Launched(LaunchVms(size, cpu, ram)) <==> n in NodeNames(size)
    decreases Count(size)
  {
    if size > 0 {
      var p := LaunchVms(size - 1, cpu, ram);
      var last := Launch(NodeName(size - 1), cpu, ram, CloudInit);
      assert LaunchVms(size, cpu, ram) == p + [last];
      LaunchedConcat(p, [last]);
      LaunchVmsNames(size - 1, cpu, ram);
      assert Launched([last]) == {NodeName(size - 1)};
      NodeNamesSnoc(size);
    }
  }

  lemma {:induction false} LaunchedConcat(a: seq<Command>, b: seq<Command>)
    ensures Launched(a + b) == Launched(a) + Launched(b)
  {
    if |a| > 0 {
      assert (a + b)[0] == a[0];
      assert (a + b)[1..] == a[1..] + b;
      LaunchedConcat(a[1..], b);
    } else {
      assert a + b == b;
    }
  }

  /**
    After `launch_vms(size, …)` the cluster holds its earlier nodes plus exactly
    `manager, worker1, …, worker(size-1)`, and no file content has changed
    (relaunching an existing name fails and is ignored).
   */
  lemma LaunchVmsEffect(c: State, size: int, cpu: int, ram: int, node: string, path: string)
    ensures forall n :: n in Perform(c, LaunchVms(size, cpu, ram)) <==> n in c || n in NodeNames(size)
    ensures Lines(Perform(c, LaunchVms(size, cpu, ram)), node, path) == Lines(c, node, path)
  {
    PerformNodes(c, LaunchVms(size, cpu, ram));
    LaunchVmsNames(size, cpu, ram);
    LaunchesKeepLines(c, LaunchVms(size, cpu, ram), node, path);
  }
}

=== FILE: shared_storage.dfy ===
/**
  `setup_nfs_server`, `setup_nfs_common(size)` and `create_mpi_hosts(size)`: export
  the cloud directory from `manager`, mount it on each worker and persist the mount
  in `/etc/fstab`, then write the host list into the shared directory.
 */
module SharedStorage {
  import opened Cluster
  import opened Provision

  /** `setup_nfs_server()`: all four commands run on `manager`. */
  function SetupNfsServer(): (r: seq<Command>)
    ensures forall cmd :: cmd in r ==> cmd.Exec? && cmd.node == Manager
  {
    [ Exec(Manager, MakeDir(CloudDir)),
      Exec(Manager, AppendLine(Exports, ExportsLine)),
      Exec(Manager, ExportAll),
      Exec(Manager, RestartService(NfsService)) ]
  }

  /** The only append is the one export line on `manager`. */
  lemma SetupNfsServerAppends(node: string, path: string)
    ensures AppendedTo(SetupNfsServer(), node, path)
         == if node == Manager && path == Exports then [ExportsLine] else []
  {
    var r := SetupNfsServer();
    assert r[1..][1..][1..][1..] == [];
    assert AppendedTo(r[1..][1..][1..], node, path) == [];
    assert AppendedTo(r[1..][1..], node, path) == [];
  }

  /** The three commands run on worker i. */
  function WorkerMountCommands(name: string): seq<Command> {
    [ Exec(name, MakeDir(CloudDir)),
      Exec(name, Mount(NfsExport, CloudDir)),
      Exec(name, AppendLine(Fstab, FstabLine)) ]
  }

  /** Node `node` is one of `worker1 … worker(size-1)`. */
  predicate IsWorker(node: string, size: int) {
    exists i :: 1 <= i < size && NodeName(i) == node
  }

  /** `setup_nfs_common(size)`: `for i in range(1, size)`. */
  function SetupNfsCommon(size: int): (r: seq<Command>)
    ensures size <= 1 ==> r == []
    ensures |r| == 3 * (if size > 1 then size - 1 else 0)
    ensures forall cmd :: cmd in r ==>
              cmd.Exec? && (cmd.op.MakeDir? || cmd.op.Mount? || (cmd.op.AppendLine? && cmd.op.path == Fstab))
    decreases Count(size)
  {
    if size <= 1 then [] else SetupNfsCommon(size - 1) + WorkerMountCommands(NodeName(size - 1))
  }

  /**
    Worker i, for 1 ≤ i < size, is handled by commands 3(i−1) to 3(i−1)+2: it
    creates the mount point, mounts `manager`'s export on it, then records the
    mount in its `/etc/fstab`.
   */
  lemma {:induction false} SetupNfsCommonOrder(size: int, i: int)
    requires 1 <= i < size
    ensures |SetupNfsCommon(size)| == 3 * (size - 1)
    ensures SetupNfsCommon(size)[3 * (i - 1)] == Exec(NodeName(i), MakeDir(CloudDir))
    ensures SetupNfsCommon(size)[3 * (i - 1) + 1] == Exec(NodeName(i), Mount(NfsExport, CloudDir))
    ensures SetupNfsCommon(size)[3 * (i - 1) + 2] == Exec(NodeName(i), AppendLine(Fstab, FstabLine))
    decreases size
  {
    var cmds := SetupNfsCommon(size);
    var prev := SetupNfsCommon(size - 1);
    var last := WorkerMountCommands(NodeName(size - 1));
    assert cmds == prev + last;
    var k := 3 * (i - 1);
    if i < size - 1 {
      SetupNfsCommonOrder(size - 1, i);
      assert k + 2 < |prev|;
      assert cmds[k] == prev[k] && cmds[k + 1] == prev[k + 1] && cmds[k + 2] == prev[k + 2];
    } else {
      assert |prev| == k;
      assert cmds[k] == last[0] && cmds[k + 1] == last[1] && cmds[k + 2] == last[2];
    }
  }

  /** Every command runs on one of `worker1 … worker(size-1)`, never on `manager`. */
  lemma {:induction false} SetupNfsCommonNodes(size: int)
    ensures forall cmd :: cmd in SetupNfsCommon(size) ==> cmd.node != Manager && IsWorker(cmd.node, size)
    decreases Count(size)
  {
    if size > 1 {
      var prev := SetupNfsCommon(size - 1);
      var name := NodeName(size - 1);
      assert SetupNfsCommon(size) == prev + WorkerMountCommands(name);
      SetupNfsCommonNodes(size - 1);
      assert IsWorker(name, size);
      forall cmd | cmd in prev
        ensures IsWorker(cmd.node, size)
      {
        var i :| 1 <= i < size - 1 && NodeName(i) == cmd.node;
      }
      assert name != Manager by {
        if name == Manager {
          NodeNameInjective(size - 1, 0);
        }
      }
    }
  }

  lemma WorkerMountAppends(name: string, node: string, path: string)
    ensures AppendedTo(WorkerMountCommands(name), node, path)
         == if node == name && path == Fstab then [FstabLine] else []
  {
    var w := WorkerMountCommands(name);
    assert w[1..][1..][1..] == [];
    assert AppendedTo(w[1..][1..], node, path) == if node == name && path == Fstab then [FstabLine] else [];
    assert AppendedTo(w[1..], node, path) == AppendedTo(w[1..][1..], node, path);
  }

  /** The workers of `size` are those of `size - 1` plus the new last one, which is not among them. */
  lemma IsWorkerStep(size: int, node: string)
    requires size > 1
    ensures IsWorker(node, size) <==> IsWorker(node, size - 1) || node == NodeName(size - 1)
    ensures !IsWorker(NodeName(size - 1), size - 1)
  {
    if IsWorker(node, size) {
      var i :| 1 <= i < size && NodeName(i) == node;
      if i < size - 1 {
        assert IsWorker(node, size - 1);
      }
    }
    if IsWorker(node, size - 1) {
      var i :| 1 <= i < size - 1 && NodeName(i) == node;
      assert IsWorker(node, size);
    }
    if node == NodeName(size - 1) {
      assert IsWorker(node, size);
    }
    forall i | 1 <= i < size - 1
      ensures NodeName(i) != NodeName(size - 1)
    {
      if NodeName(i) == NodeName(size - 1) {
        NodeNameInjective(i, size - 1);
      }
    }
  }

  /**
    Each of `worker1 … worker(size-1)` gains exactly the one fstab line, and
    nothing else is appended anywhere, on `manager` or elsewhere.
   */
  lemma {:induction false} SetupNfsCommonAppends(size: int, node: string, path: string)
    ensures AppendedTo(SetupNfsCommon(size), node, path)
         == if path == Fstab && IsWorker(node, size) then [FstabLine] else []
    decreases Count(size)
  {
    if size > 1 {
      var name := NodeName(size - 1);
      var prev := SetupNfsCommon(size - 1);
      var w := WorkerMountCommands(name);
      assert SetupNfsCommon(size) == prev + w;
      AppendedToConcat(prev, w, node, path);
      SetupNfsCommonAppends(size - 1, node, path);
      WorkerMountAppends(name, node, path);
      IsWorkerStep(size, node);
      var before := AppendedTo(prev, node, path);
      var added := AppendedTo(w, node, path);
      if path == Fstab && IsWorker(node, size - 1) {
        assert node != name;
        assert before == [FstabLine] && added == [];
      } else if path == Fstab && node == name {
        assert before == [] && added == [FstabLine];
      } else {
        assert before == [] && added == [];
      }
    } else {
      assert !IsWorker(node, size);
    }
  }

  /** `for i in range(size)`: one append of node i's name to `mpi_hosts` on `manager`. */
  function HostListAppends(size: int): (r: seq<Command>)
    ensures |r| == Count(size)
    ensures forall i :: 0 <= i < |r| ==> r[i] == Exec(Manager, AppendLine(MpiHosts, NodeName(i)))
    decreases Count(size)
  {
    if size <= 0 then []
    else HostListAppends(size - 1) + [Exec(Manager, AppendLine(MpiHosts, NodeName(size - 1)))]
  }

  /** `create_mpi_hosts(size)`: `touch` the file, then append the names. */
  function CreateMpiHosts(size: int): (r: seq<Command>)
    ensures |r| == Count(size) + 1 && r[0] == Exec(Manager, Touch(MpiHosts))
    ensures forall i :: 1 <= i < |r| ==> r[i] == Exec(Manager, AppendLine(MpiHosts, NodeName(i - 1)))
  {
    [Exec(Manager, Touch(MpiHosts))] + HostListAppends(size)
  }

  lemma {:induction false} HostListAppendsLines(size: int, node: string, path: string)
    ensures AppendedTo(HostListAppends(size), node, path)
         == if node == Manager && path == MpiHosts then NodeNames(size) else []
    decreases Count(size)
  {
    if size > 0 {
      var last := Exec(Manager, AppendLine(MpiHosts, NodeName(size - 1)));
      var prev := HostListAppends(size - 1);
      assert HostListAppends(size) == prev + [last];
      AppendedToConcat(prev, [last], node, path);
      HostListAppendsLines(size - 1, node, path);
      assert AppendedTo([last], node, path)
          == if node == Manager && path == MpiHosts then [NodeName(size - 1)] else [];
      NodeNamesSnoc(size);
    }
  }

  /** Only `manager`'s `mpi_hosts` gains lines: the node names in index order. */
  lemma CreateMpiHostsAppends(size: int, node: string, path: string)
    ensures AppendedTo(CreateMpiHosts(size), node, path)
         == if node == Manager && path == MpiHosts then NodeNames(size) else []
  {
    AppendedToConcat([Exec(Manager, Touch(MpiHosts))], HostListAppends(size), node, path);
    HostListAppendsLines(size, node, path);
  }

  /**
    The host-list file: `touch` does not truncate, so its prior lines stay and
    `manager, worker1, …, worker(size-1)` follow; from an empty or absent file
    the content is exactly that list, and a second run appends the list again.
   */
  lemma CreateMpiHostsEffect(c: State, size: int)
    requires Manager in c
    ensures Lines(Perform(c, CreateMpiHosts(size)), Manager, MpiHosts) == Lines(c, Manager, MpiHosts) + NodeNames(size)
    ensures Lines(c, Manager, MpiHosts) == [] ==> Lines(Perform(c, CreateMpiHosts(size)), Manager, MpiHosts) == NodeNames(size)
    ensures Lines(Perform(Perform(c, CreateMpiHosts(size)), CreateMpiHosts(size)), Manager, MpiHosts)
         == Lines(c, Manager, MpiHosts) + NodeNames(size) + NodeNames(size)
  {
    var c1 := Perform(c, CreateMpiHosts(size));
    PerformLines(c, CreateMpiHosts(size), Manager, MpiHosts);
    CreateMpiHostsAppends(size, Manager, MpiHosts);
    PerformNodes(c, CreateMpiHosts(size));
    PerformLines(c1, CreateMpiHosts(size), Manager, MpiHosts);
  }
}

=== FILE: trust.dfy ===
/**
  `generate_ssh_keys(size)` and `setup_ssh_keys(ssh_keys)`: generate a key pair on
  each node named from `size`, collect the public keys into a dict, then for
  every node V and every other node O append O's key to V's `authorized_keys`
  and ssh from O to V once so that O records V's host key.
 */
module Trust {
  import opened Cluster
  import opened OrderedDict
  import opened Mesh
  import opened Provision

  /** The dict of public keys and the commands issued while collecting it. */
  datatype KeyGeneration = KeyGeneration(keys: seq<Entry>, commands: seq<Command>)

  /** The two commands issued on one node: generate the pair, then `cat` the public half. */
  function KeyGenCommands(name: string): seq<Command> {
    [Exec(name, KeyGen(name, KeyFile)), Exec(name, ReadFile(PublicKeyFile))]
  }

  /**
    `generate_ssh_keys(size)`; `keyOf(name)` is the stripped output of `cat` on that
    node. The names come from `size`, not from the discovered nodes. The one loop of
    `generate_ssh_keys` is split here into the dict it fills and the commands it issues.
   */
  function GenerateSshKeys(size: int, keyOf: string -> string): (r: KeyGeneration)
    ensures Names(r.keys) == NodeNames(size)
    ensures forall e :: e in r.keys ==> e.value == keyOf(e.name)
    ensures |r.commands| == 2 * Count(size)
    ensures forall cmd :: cmd in r.commands ==> cmd.Exec? && (cmd.op.KeyGen? || cmd.op.ReadFile?)
  {
    KeyGeneration(CollectKeys(size, keyOf), KeyGenPlan(size))
  }

  /** The dict after the loop: node i's key stored under its name, in index order. */
  function CollectKeys(size: int, keyOf: string -> string): (keys: seq<Entry>)
    ensures Names(keys) == NodeNames(size)
    ensures forall e :: e in keys ==> e.value == keyOf(e.name)
    decreases Count(size)
  {
    if size <= 0 then []
    else
      var prev := CollectKeys(size - 1, keyOf);
      var name := NodeName(size - 1);
      FreshName(prev, size - 1);
      NodeNamesSnoc(size);
      Put(prev, name, keyOf(name))
  }

  /** The commands of the loop: generate, then read, on each node in index order. */
  function KeyGenPlan(size: int): (r: seq<Command>)
    ensures |r| == 2 * Count(size)
    ensures forall cmd :: cmd in r ==> cmd.Exec? && (cmd.op.KeyGen? || cmd.op.ReadFile?)
    decreases Count(size)
  {
    if size <= 0 then [] else KeyGenPlan(size - 1) + KeyGenCommands(NodeName(size - 1))
  }

  /** The name of index n is not among the names of the smaller indices. */
  lemma FreshName(keys: seq<Entry>, n: nat)
    requires Names(keys) == NodeNames(n)
    ensures NodeName(n) !in Names(keys)
  {
    forall j | 0 <= j < n
      ensures Names(keys)[j] != NodeName(n)
    {
      assert Names(keys)[j] == NodeName(j);
      if NodeName(j) == NodeName(n) {
        NodeNameInjective(j, n);
      }
    }
  }

  /** The collected dict has one key per node name, so no key twice. */
  lemma GeneratedKeysUnique(size: int, keyOf: string -> string)
    ensures UniqueNames(GenerateSshKeys(size, keyOf).keys)
  {
    var keys := GenerateSshKeys(size, keyOf).keys;
    var names := Names(keys);
    assert names == NodeNames(size);
    NodeNamesShape(size);
    assert Distinct(names);
    forall i, j | 0 <= i < j < |keys|
      ensures keys[i].name != keys[j].name
    {
      assert keys[i].name == names[i] && keys[j].name == names[j];
    }
  }

  /** Node i is handled by commands 2i (generate) and 2i+1 (read the public key), in index order. */
  lemma {:induction false} GenerateSshKeysOrder(size: int, keyOf: string -> string, i: int)
    requires 0 <= i < Count(size)
    ensures GenerateSshKeys(size, keyOf).commands[2 * i] == Exec(NodeName(i), KeyGen(NodeName(i), KeyFile))
    ensures GenerateSshKeys(size, keyOf).commands[2 * i + 1] == Exec(NodeName(i), ReadFile(PublicKeyFile))
  {
    KeyGenPlanOrder(size, i);
  }

  lemma {:induction false} KeyGenPlanOrder(size: int, i: int)
    requires 0 <= i < Count(size)
    ensures KeyGenPlan(size)[2 * i] == Exec(NodeName(i), KeyGen(NodeName(i), KeyFile))
    ensures KeyGenPlan(size)[2 * i + 1] == Exec(NodeName(i), ReadFile(PublicKeyFile))
    decreases Count(size)
  {
    var cmds := KeyGenPlan(size);
    var prev := KeyGenPlan(size - 1);
    var last := KeyGenCommands(NodeName(size - 1));
    assert cmds == prev + last;
    var k := 2 * i;
    assert |prev| == 2 * (size - 1);
    if i < size - 1 {
      KeyGenPlanOrder(size - 1, i);
      assert k + 1 < |prev|;
      assert cmds[k] == prev[k] && cmds[k + 1] == prev[k + 1];
    } else {
      assert k == |prev| && i == size - 1;
      assert cmds[k] == last[0] && cmds[k + 1] == last[1];
    }
  }

  /** The key of the second node of a pair, as appended to the first node's `authorized_keys`. */
  function KeyLine(e: Entry): string {
    e.value
  }

  /** The two commands for one visited pair (V, O): append O's key on V, then ssh from O to V. */
  function PairCommands(p: (Entry, Entry)): seq<Command> {
    [Exec(p.0.name, AppendLine(AuthorizedKeys, KeyLine(p.1))), Exec(p.1.name, Ssh(p.0.name))]
  }

  function TrustCommands(ps: seq<(Entry, Entry)>): (r: seq<Command>)
    ensures |r| == 2 * |ps|
    ensures forall cmd :: cmd in r ==>
              cmd.Exec? && ((cmd.op.AppendLine? && cmd.op.path == AuthorizedKeys) || cmd.op.Ssh?)
  {
    if |ps| == 0 then [] else PairCommands(ps[0]) + TrustCommands(ps[1..])
  }

  /** Command 2i is the append for pair i and command 2i+1 the ssh call that follows it. */
  lemma {:induction false} TrustCommandsOrder(ps: seq<(Entry, Entry)>, i: int)
    requires 0 <= i < |ps|
    ensures TrustCommands(ps)[2 * i] == Exec(ps[i].0.name, AppendLine(AuthorizedKeys, KeyLine(ps[i].1)))
    ensures TrustCommands(ps)[2 * i + 1] == Exec(ps[i].1.name, Ssh(ps[i].0.name))
  {
    if i > 0 {
      TrustCommandsOrder(ps[1..], i - 1);
      var r := TrustCommands(ps);
      var rest := TrustCommands(ps[1..]);
      assert r[2 * i] == rest[2 * (i - 1)];
      assert r[2 * i + 1] == rest[2 * (i - 1) + 1];
    }
  }

  /** `setup_ssh_keys(ssh_keys)`. */
  function SetupSshKeys(keys: seq<Entry>): (r: seq<Command>)
    ensures |r| == 2 * |Pairs(keys, keys)|
    ensures forall cmd :: cmd in r ==>
              cmd.Exec? && ((cmd.op.AppendLine? && cmd.op.path == AuthorizedKeys) || cmd.op.Ssh?)
  {
    TrustCommands(Pairs(keys, keys))
  }

  /** The (from, to) node pairs of the ssh calls of a log, in order. */
  function SshCalls(cmds: seq<Command>): seq<(string, string)> {
    if |cmds| == 0 then []
    else (if cmds[0].Exec? && cmds[0].op.Ssh? then [(cmds[0].node, cmds[0].op.target)] else [])
         + SshCalls(cmds[1..])
  }

  lemma {:induction false} SshCallsConcat(a: seq<Command>, b: seq<Command>)
    ensures SshCalls(a + b) == SshCalls(a) + SshCalls(b)
  {
    if |a| > 0 {
      assert (a + b)[0] == a[0];
      assert (a + b)[1..] == a[1..] + b;
      SshCallsConcat(a[1..], b);
    } else {
      assert a + b == b;
    }
  }

  lemma {:induction false} TrustCommandsSsh(ps: seq<(Entry, Entry)>)
    ensures |SshCalls(TrustCommands(ps))| == |ps|
    ensures forall i :: 0 <= i < |ps| ==> SshCalls(TrustCommands(ps))[i] == (ps[i].1.name, ps[i].0.name)
  {
    if |ps| > 0 {
      var head := PairCommands(ps[0]);
      SshCallsConcat(head, TrustCommands(ps[1..]));
      assert SshCalls(head) == [(ps[0].1.name, ps[0].0.name)] by {
        assert head[1..][1..] == [];
      }
      TrustCommandsSsh(ps[1..]);
    }
  }

  lemma {:induction false} TrustCommandsAppend(ps: seq<(Entry, Entry)>, node: string, path: string)
    ensures AppendedTo(TrustCommands(ps), node, path)
         == if path == AuthorizedKeys then LinesFor(ps, node, KeyLine) else []
  {
    if |ps| > 0 {
      var head := PairCommands(ps[0]);
      AppendedToConcat(head, TrustCommands(ps[1..]), node, path);
      assert head[1..][1..] == [];
      TrustCommandsAppend(ps[1..], node, path);
    }
  }

  /** Every entry's key is among the dict's keys. */
  lemma EntryNamesIn(keys: seq<Entry>)
    ensures forall x :: x in keys ==> x.name in Names(keys)
  {
    forall x | x in keys
      ensures x.name in Names(keys)
    {
      var i :| 0 <= i < |keys| && keys[i] == x;
      assert Names(keys)[i] == x.name;
    }
  }

  /** With n unique keys there are n·(n−1) ssh calls. */
  lemma SetupSshKeysCallCount(keys: seq<Entry>)
    requires UniqueNames(keys)
    ensures |SshCalls(SetupSshKeys(keys))| == |keys| * (|keys| - 1)
  {
    TrustCommandsSsh(Pairs(keys, keys));
    EntryNamesIn(keys);
    PairsCount(keys, keys);
  }

  /** With unique keys no ssh call is issued twice. */
  lemma SetupSshKeysCallsDistinct(keys: seq<Entry>)
    requires UniqueNames(keys)
    ensures Distinct(SshCalls(SetupSshKeys(keys)))
  {
    var ps := Pairs(keys, keys);
    var calls := SshCalls(SetupSshKeys(keys));
    TrustCommandsSsh(ps);
    PairsDistinct(keys, keys);
    forall i, j | 0 <= i < j < |calls|
      ensures calls[i] != calls[j]
    {
      assert ps[i] in ps && ps[j] in ps;
      PairsMembership(keys, keys, ps[i].0, ps[i].1);
      PairsMembership(keys, keys, ps[j].0, ps[j].1);
      SameNamesSamePair(keys, ps[i], ps[j]);
    }
  }

  /** Every ssh call goes between two different keys. */
  lemma SshCallSound(keys: seq<Entry>, from: string, to: string)
    requires (from, to) in SshCalls(SetupSshKeys(keys))
    ensures from in Names(keys) && to in Names(keys) && from != to
  {
    var ps := Pairs(keys, keys);
    var calls := SshCalls(SetupSshKeys(keys));
    TrustCommandsSsh(ps);
    var i :| 0 <= i < |calls| && calls[i] == (from, to);
    assert ps[i] in ps;
    PairsMembership(keys, keys, ps[i].0, ps[i].1);
    EntryNamesIn(keys);
  }

  /** Every ordered pair of different keys gets its ssh call. */
  lemma SshCallComplete(keys: seq<Entry>, from: string, to: string)
    requires from in Names(keys) && to in Names(keys) && from != to
    ensures (from, to) in SshCalls(SetupSshKeys(keys))
  {
    var ps := Pairs(keys, keys);
    var calls := SshCalls(SetupSshKeys(keys));
    TrustCommandsSsh(ps);
    var a :| 0 <= a < |keys| && Names(keys)[a] == to;
    var b :| 0 <= b < |keys| && Names(keys)[b] == from;
    assert keys[a] in keys && keys[b] in keys;
    PairsMembership(keys, keys, keys[a], keys[b]);
    var i :| 0 <= i < |ps| && ps[i] == (keys[a], keys[b]);
    assert calls[i] == (from, to);
  }

  /** An ssh call goes from O to V exactly when O and V are different keys. */
  lemma SetupSshKeysCallPairs(keys: seq<Entry>, from: string, to: string)
    ensures (from, to) in SshCalls(SetupSshKeys(keys)) <==> from in Names(keys) && to in Names(keys) && from != to
  {
    if (from, to) in SshCalls(SetupSshKeys(keys)) {
      SshCallSound(keys, from, to);
    }
    if from in Names(keys) && to in Names(keys) && from != to {
      SshCallComplete(keys, from, to);
    }
  }

  /** With unique keys an entry is determined by its key. */
  lemma SameNameSameEntry(d: seq<Entry>, x: Entry, y: Entry)
    requires UniqueNames(d) && x in d && y in d
    ensures x.name == y.name ==> x == y
  {
    var i :| 0 <= i < |d| && d[i] == x;
    var j :| 0 <= j < |d| && d[j] == y;
  }

  lemma SameNamesSamePair(d: seq<Entry>, p: (Entry, Entry), q: (Entry, Entry))
    requires UniqueNames(d) && p.0 in d && p.1 in d && q.0 in d && q.1 in d
    ensures p.0.name == q.0.name && p.1.name == q.1.name ==> p == q
  {
    SameNameSameEntry(d, p.0, q.0);
    SameNameSameEntry(d, p.1, q.1);
  }

  /**
    The file effect: on a node V that is a key, `authorized_keys` keeps its prior
    lines and gains the key of every other node once, in dict order, never its
    own; every other file, and every node that is not a key, is unchanged.
   */
  lemma SetupSshKeysEffect(c: State, keys: seq<Entry>, node: string, path: string)
    requires UniqueNames(keys) && node in c
    ensures Lines(Perform(c, SetupSshKeys(keys)), node, path)
         == Lines(c, node, path)
            + (if path == AuthorizedKeys && node in Names(keys) then MapLines(Others(keys, node), KeyLine) else [])
  {
    PerformLines(c, SetupSshKeys(keys), node, path);
    TrustCommandsAppend(Pairs(keys, keys), node, path);
    LinesForPairs(keys, keys, node, KeyLine);
  }
}
